=== FILE: README.md ===
# DynUI core, modelled in Dafny

DynUI is a declarative styling library for UIKit views. A view carries named styles. It
rasterises its decoration into an image whenever its bounds change, and it caches the last
bounds it drew for so that repeated layout passes do not redraw. This project models five
deterministic pieces of that library as pure Dafny functions and proves properties about them:

- **Render cache** (`render_cache.dfy`, module `RenderCache`). This is the per-view state
  behind `dyn_render`. It holds the recorded frame, the rasterisation counter, the displayed
  contents, the renderable-style dictionary, whether the bounds observer has been installed,
  the text style, and whether a button's highlight observer has been installed. Each UIKit
  entry point is a transition function: `dyn_render`, `dyn_forceRerender`, the bounds
  observer, `dyn_setup`, the style getters and setters, the button's `dyn_setupButtonStyle`
  and highlight observer, and `dyn_applyStyleForState`.
- **Popover geometry** (`popover.dfy`, module `Popover`). `layoutSubviews` computes the
  arrow rect and the arrow-free body. `getBgImage` traces a path around the body, with the
  arrow triangle spliced into the matching side. `CGFloat` is modelled as `real`.
- **Attribute serialisers** (`serialization.dfy`, `style_attributes.dfy`). The colour and
  gradient attributes encode to, and decode from, a tagged `Dict`/`Str`/`Array` tree. The
  codecs for UIColor, CGPoint and String are not part of this model, so they are passed in
  as `Codec` values. Their round-trip behaviour is a precondition (`Lossless`, `ReadsStr`).
- **Style registry lookup** (`registry.dfy`). `drawableStyleForName` is a first-match
  linear search.
- **Rect centring** (`geometry.dfy`). `CGRect.centeredIn`.

Decoding has three outcomes, held in `Decoding<T>`. A value is `Decoded`. Swift's `nil` is
`Nil`. A force-unwrap of `nil`, which traps at run time, is `Trapped`.

Three facts about the code shape the model:

- Apart from the first-sight test in `dyn_render` (View.swift:141), only the bounds observer
  filters out zero-size bounds (View.swift:101-102). Once a frame is recorded, `dyn_render`
  has no size test (View.swift:134-138). A change to zero-size
  bounds therefore reaches the nested `render()`, and the counter goes up
  (`RenderCache.RenderDoesNotFilterZeroSize`). A zero-size bitmap context cannot be created,
  so `UIImage.drawImage` (Helpers.swift:21-27) may get no image there. It returns that
  implicitly unwrapped value as a non-optional image, which would then trap. Drawing is
  outside this model, so the model records an opaque raster of the zero bounds instead.
  Renders that arrive through the observer are always of positive bounds
  (`ObserveKeepsPositiveContents`).
- `DynUI.renderQueue` is declared but never used, so rasterisation is synchronous.
- The registry has only `drawableStyleForName`, a search over one list.

The first `dyn_setup` subscribes to `layer.bounds`. RxCocoa's observation delivers the
current value when the subscription is made. The model therefore follows the installation
immediately with one observer notification that carries the current bounds. The same holds
for the highlight observer that `dyn_setupButtonStyle` installs (View.swift:258-269). For a
highlighted button, that first delivery applies the style synchronously, before the setter's
own `dyn_applyStyleForState`. So the style is applied twice, and each application clears the
recorded frame (`RenderCache.SetButtonStyleRenderCount`). For an unhighlighted button, the
delivery is dispatched 0.2 s later. The model makes it a separate event
(`RenderCache.OnHighlightChanged`).

`getBgImage` reads the two bottom corners through `CGRectGetMaxX`/`CGRectGetMaxY`
(Popover.swift:143, 158). For a body with a negative extent, these give the origin's
coordinate. Every other point uses origin + size, and the model keeps that distinction
(`Popover.SharpCorners`, `Popover.NarrowLeftBodyCorner`).

`dyn_render` compares the recorded frame with the bounds using CGRect `!=` (View.swift:135).
That operator is `CGRectEqualToRect`, which compares the standardised rects. So (0,0,10,10)
and (10,10,−10,−10) count as equal, and nothing is redrawn or re-recorded
(`RenderCache.RenderFlippedBoundsIsNoop`). The model compares rects the same way
(`Geometry.SameRect`).

The model states one asymmetry as the code has it. For an Up arrow, the triangle's apex is
drawn at y = 1, which is the 1-pt body inset. For Down, Left and Right, the apex lies on the
frame's edge itself (`Popover.LayoutApex`).

## Model

| member | source | states |
|---|---|---|
| Geometry.CenteredIn | Pod/Classes/Helpers.swift:31-33 | The result keeps `self`'s size. Its centre is the centre of `rect`'s extent measured from (0,0). The margins on each axis are equal. |
| Geometry.CenteredInIgnoresOrigins | Pod/Classes/Helpers.swift:32 | Neither rect's origin affects the result. |
| Geometry.CenteredInSameSize | Pod/Classes/Helpers.swift:32 | Equal sizes give origin (0,0). |
| Geometry.CenteredInUnique | Pod/Classes/Helpers.swift:32 | Any rect of `self`'s size with equal margins in `rect` is the centred one. |
| RenderCache.Rasterize | Pod/Classes/View.swift:122-132 | Each rasterisation adds exactly 1 to the counter. It displays a raster of the current bounds and styles, numbered by the new count. Nothing else changes. |
| RenderCache.Render | Pod/Classes/View.swift:121-145 | Afterwards the recorded frame equals the bounds under CGRect `==`. It is the bounds themselves whenever the view rasterises or no frame was recorded; otherwise the old frame is kept. The view rasterises once when the recorded frame differs from the bounds, or when there is no recorded frame and the bounds are positive. Otherwise the counter and contents are kept. Styles, observer and text style never change. The counter/contents invariant is preserved. |
| RenderCache.ForceRerender | Pod/Classes/View.swift:54-57 | After the recorded frame is cleared, the view rasterises exactly when both extents of the bounds are positive, with a raster of the bounds and current styles. The bounds are recorded either way. Styles, both observer flags and the text style are unchanged. |
| RenderCache.OnBoundsChanged | Pod/Classes/View.swift:100-104 | The observer leaves the view untouched when it is not installed or when the bounds have a zero or negative extent. Otherwise it is exactly `dyn_render` of the bounds, so it rasterises at most once, and only for positive bounds. |
| RenderCache.Setup | Pod/Classes/View.swift:92-106 | Afterwards the observer is installed. An installed observer means render now. A first installation reacts once to the current bounds: for positive bounds it is `dyn_render` on the newly observed view, and other bounds change nothing but the installation. |
| RenderCache.GetViewStyle | Pod/Classes/View.swift:42-46 | Returns the `dyn_viewStyle` entry exactly when it holds a view style. |
| RenderCache.GetButtonStyle | Pod/Classes/View.swift:218-221 | Returns the `dyn_buttonStyle` entry exactly when it holds a button style. |
| RenderCache.SetRenderableStyle | Pod/Classes/View.swift:63-76 | Stores the entry, or removes it for nil. Every other key is untouched. Then `dyn_setup` runs. When the observer is already installed, or the bounds are positive, the recorded frame afterwards equals the bounds, and the view rasterises exactly when `dyn_render` would. Otherwise the frame and counter are unchanged. |
| RenderCache.SetViewStyle | Pod/Classes/View.swift:47-49 | Reading the view style back gives what was set. The button style and text style are unaffected. |
| RenderCache.ApplyStyleForState | Pod/Classes/View.swift:232-246 | With no button style nothing changes. Otherwise the text style becomes the button style's text style, and the button style itself is kept. |
| RenderCache.OnHighlightChanged | Pod/Classes/View.swift:258-269 | With no highlight observer installed, nothing changes. Otherwise the style is applied for the delivered highlight state. |
| RenderCache.SetupButtonStyle | Pod/Classes/View.swift:253-270 | Afterwards the highlight observer is installed. An existing observer means no change. A first installation on a highlighted button applies the highlighted style at once. |
| RenderCache.SetButtonStyle | Pod/Classes/View.swift:218-230 | Reading the button style back gives what was set. A non-nil style also sets its text style and attaches the view style for the current highlight state. That is the highlighted view style when highlighted and present, the plain one when not highlighted, and the existing view style otherwise. The highlight observer is installed iff the new style is non-nil. |
| RenderCache.SetButtonStyleHighlightedWithoutStyle | Pod/Classes/View.swift:225-243 | A highlighted button whose style has no highlighted view style gets no raster beyond storing the style. Its contents are kept and its recorded frame is forgotten. |
| RenderCache.SetButtonStyleRenderCount | Pod/Classes/View.swift:218-270 | On an observed view with positive bounds, a non-nil style rasterises once more than storing it does. A highlighted button whose highlight observer is installed now rasterises twice more. Both hold when the button is not highlighted, or when its style has a highlighted view style. |
| RenderCache.ClearButtonStyleStopsHighlighting | Pod/Classes/View.swift:225-228 | A nil button style removes the entry and drops the highlight observer, so later highlight changes do nothing. |
| RenderCache.RenderUnchangedBoundsIsNoop | Pod/Classes/View.swift:134-135 | A recorded frame equal to the bounds under CGRect `==` leaves the state unchanged. |
| RenderCache.RenderFlippedBoundsIsNoop | Pod/Classes/View.swift:134-135 | A recorded (0,0,10,10) and bounds (10,10,−10,−10) do not rasterise. |
| RenderCache.RenderChangedBoundsRendersOnce | Pod/Classes/View.swift:135-138 | A recorded frame that differs from the bounds under CGRect `==` gives one rasterisation, new contents and the new frame recorded. |
| RenderCache.RenderFirstSight | Pod/Classes/View.swift:139-143 | With no recorded frame, the bounds are recorded and the view rasterises iff width > 0 and height > 0. |
| RenderCache.RenderIdempotent | Pod/Classes/View.swift:121-145 | Rendering twice with the same bounds equals rendering once, so the count rises by at most 1. |
| RenderCache.RenderDoesNotFilterZeroSize | Pod/Classes/View.swift:122-138 | With a recorded frame, a change to any bounds without two positive extents still reaches `render()`. The counter goes up by 1, and the drawing step is asked for those bounds. |
| RenderCache.ForceRerenderRendersPositive | Pod/Classes/View.swift:54-57 | After a forced rerender, positive bounds always produce a fresh raster. |
| RenderCache.ObserverFixpoint | Pod/Classes/View.swift:100-104 | A repeated notification with the same bounds is a no-op. |
| RenderCache.ObserveRepeatedFixpoint | Pod/Classes/View.swift:100-104 | A state that one notification leaves alone stays put under any run of that notification. |
| RenderCache.ObserveRepeatedRendersAtMostOnce | Pod/Classes/View.swift:100-145 | Any run of identical notifications rasterises at most once. |
| RenderCache.ObserveZeroSizeIsNoop | Pod/Classes/View.swift:100-104 | Notifications whose bounds all have a zero or negative extent change nothing. |
| RenderCache.ObserveKeepsPositiveContents | Pod/Classes/View.swift:100-104 | Driven by the observer alone, the displayed raster is always of positive bounds. |
| RenderCache.ObserveBoundsRenderCount | Pod/Classes/View.swift:114-123 | Over a run of notifications the counter never falls, rises by at most one per notification, and stays consistent with the contents. |
| RenderCache.ObserveSameThenDifferent | Pod/Classes/View.swift:134-143 | Two identical notifications rasterise once. A third with different bounds rasterises again. |
| RenderCache.ApplyHighlightedWithStyle | Pod/Classes/View.swift:237-240 | When highlighted and the style has a highlighted view style, that style becomes the view style. The text style is taken from the button style. |
| RenderCache.ApplyNotHighlighted | Pod/Classes/View.swift:241-243 | When not highlighted, the button style's view style (possibly nil) becomes the view style. The text style is taken from the button style. |
| RenderCache.ApplyHighlightedWithoutStyle | Pod/Classes/View.swift:232-240 | When highlighted with no highlighted view style, the view style is kept. Only the recorded frame is cleared and the text style taken. |
| RenderCache.ApplyStyleForStateRerenders | Pod/Classes/View.swift:232-244 | Because the recorded frame is cleared first, an observed view with positive bounds that receives a view style always rasterises. The raster includes the new style. |
| Popover.ContentViewInsets | Pod/Classes/Popover.swift:36-38 | Returns the configured insets, otherwise 10 pt on each side. |
| Popover.Inset | Pod/Classes/Popover.swift:103 | Each edge moves inwards by the inset. |
| Popover.LayoutSubviews | Pod/Classes/Popover.swift:68-104 | The body is always the arrow-free region inset by 1 pt. With no cardinal direction there is no arrow and the region is the whole frame. A cardinal direction shrinks exactly one dimension, by the arrow height. The far edges are always reached by the region or by the arrow. |
| Popover.LayoutUp | Pod/Classes/Popover.swift:81-85 | Arrow = (W/2 + offset − 19, 0, 38, 20). It is centred on W/2 + offset, and the region starts just below it and reaches the bottom. |
| Popover.LayoutDown | Pod/Classes/Popover.swift:86-89 | The region's top stays at 0. Arrow y = H − 20: the arrow starts where the region ends and reaches H. |
| Popover.LayoutLeft | Pod/Classes/Popover.swift:90-94 | Arrow = (0, H/2 + offset − 19, 20, 38). The region starts at x = 20, with width W − 20. |
| Popover.LayoutRight | Pod/Classes/Popover.swift:95-98 | Arrow x = W − 20: the arrow starts where the region ends and reaches W. |
| Popover.LayoutShrinksIffCardinal | Pod/Classes/Popover.swift:80-100 | The region differs in size from the frame iff the direction is one of the four cardinal ones. |
| Popover.AddArc | Pod/Classes/Popover.swift:113 | Appends one arc. Its centre is the current point moved by (dx, dy), and it has the given radius and angles. Earlier elements are kept. |
| Popover.TurnCorner | Pod/Classes/Popover.swift:112-116 | Appends exactly one element for a corner. A rounded corner gets an arc of the style's radius centred relative to the current point. A sharp corner gets a line to its sharp point. |
| Popover.ArrowVertices | Pod/Classes/Popover.swift:119-164 | A cardinal direction has three vertices, otherwise none. The base spans the arrow rect's extent in the outline's clockwise direction. The apex lies midway along the base and is centred on the arrow rect along the side. It sits on the arrow rect's outer edge, or at y = 1 for Up. The two base corners lie on the body's edge on the arrow's side. |
| Popover.ArrowOn | Pod/Classes/Popover.swift:118-122 | A side gets the three triangle vertices, in order, iff the arrow points from that side. Otherwise it gets none. |
| Popover.CornerThenArrow | Pod/Classes/Popover.swift:126-136 | Keeps the prefix, appends that corner's `TurnCorner` element, then that side's arrow. |
| Popover.TopLeftPart | Pod/Classes/Popover.swift:111-122 | The path starts at the body's top-left corner, lowered by the radius. The Up arrow follows the first corner. |
| Popover.TopRightPart | Pod/Classes/Popover.swift:124-136 | Extends the top-left part. For a Right arrow its vertices follow the top-right corner. |
| Popover.BottomRightPart | Pod/Classes/Popover.swift:138-150 | Extends the top-right part. For a Down arrow its vertices follow the bottom-right corner. |
| Popover.BottomLeftPart | Pod/Classes/Popover.swift:152-165 | Extends the bottom-right part. For a Left arrow its vertices follow the bottom-left corner. |
| Popover.Outline | Pod/Classes/Popover.swift:108-167 | The path has 9 elements, plus 3 exactly when the direction is cardinal. It starts with the move and ends with the close. |
| Popover.GetBgImage | Pod/Classes/Popover.swift:106-174 | No popover style gives no image. Otherwise the image has the requested size and the style, and it draws `Outline` for the given direction, arrow rect and body. |
| Popover.BackgroundImage | Pod/Classes/Popover.swift:102-103 | The image handed to the border view exists iff a popover style is set. It is sized to the view's bounds and draws the outline of `LayoutSubviews`' arrow rect and body. |
| Popover.OutlineArcsContinue | Pod/Classes/Popover.swift:111-159 | Each corner arc starts exactly where the preceding element ends, so the source's centre offsets agree with its start angles. |
| Popover.OutlineArrowVertices | Pod/Classes/Popover.swift:118-165 | For a cardinal direction, the triangle's base, apex and base appear on that side's position of the outline. |
| Popover.LayoutApex | Pod/Classes/Popover.swift:84-98 | With the layout's arrow rect, the apex is mid-arrow on the frame edge for Down, Left and Right, and at y = 1 for Up. |
| Popover.SharpCorners | Pod/Classes/Popover.swift:115-158 | With no corner rounded, each corner is a line to the body's corner. The bottom corners use the standardising `CGRectGetMaxX`/`CGRectGetMaxY`. |
| Popover.NarrowLeftBodyCorner | Pod/Classes/Popover.swift:91-103 | A 20×30 frame with a Left arrow gets the body (21, 1, −2, 28), and its sharp bottom-right corner is drawn at (21, 29). |
| Geometry.Rect.GetMaxX | Pod/Classes/Popover.swift:143 | `CGRectGetMaxX` is the larger of the rect's two x edges. |
| Geometry.Rect.GetMaxY | Pod/Classes/Popover.swift:143 | `CGRectGetMaxY` is the larger of the rect's two y edges. |
| Geometry.Rect.Standardized | Pod/Classes/View.swift:135 | The standardised rect has non-negative extents. Its edges are the original's edges, smaller first. |
| Geometry.SameRectNonNegative | Pod/Classes/View.swift:135 | For rects with non-negative extents, CGRect `==` is field equality. |
| Geometry.SameRectIffSameEdges | Pod/Classes/View.swift:135 | Two rects are equal under CGRect `==` iff their smaller and larger edges agree on both axes. |
| Geometry.SameRectFlipped | Pod/Classes/View.swift:135 | (0,0,10,10) and (10,10,−10,−10) are different fields but the same rect. |
| Popover.RoundedCornerCentres | Pod/Classes/Popover.swift:111-159 | With all corners rounded, each arc is centred one radius inside the matching body corner. |
| Serialization.Lift | Pod/Classes/Style.swift:150 | An optional-returning decoder never traps. Its nil becomes `Nil`. |
| Serialization.EncodeList | Pod/Classes/Style.swift:135-136 | Arrays are encoded element by element, in order. |
| Serialization.DecodeItems | Pod/Classes/Style.swift:146-151 | A trap in any item traps. Otherwise a nil in any item gives nil. Otherwise every item decodes, in order. |
| Serialization.DecodeList | Pod/Classes/Style.swift:146-151 | A node that is not an `Array` decodes to nil. |
| Serialization.ListRoundTrip | Pod/Classes/Style.swift:135-151 | Decoding an encoded list whose elements round-trip gives the same list, in the same order. |
| Serialization.ItemsRoundTrip | Pod/Classes/Style.swift:135-151 | The item-level form of the list round trip. |
| StyleAttributes.EncodeColor | Pod/Classes/Style.swift:80-88 | Always a `Dict` that holds `"color"`. `"name"` is present iff the name is non-nil, as a plain `Str`, and there are no other keys. |
| StyleAttributes.DecodeColor | Pod/Classes/Style.swift:90-106 | Anything but a `Dict` is nil. A `Dict` without a decodable `"color"` traps. Otherwise the result has the decoded colour, and the decoded name when `"name"` is present, nil when it is absent. |
| StyleAttributes.ColorRoundTrip | Pod/Classes/Style.swift:80-106 | Decoding a serialised colour attribute gives back its name and colour, given colour and string codecs that round-trip. |
| StyleAttributes.EncodeGradient | Pod/Classes/Style.swift:129-138 | Always a `Dict` holding `"colors"` and `"locations"`, plus `"name"` iff there is a name. The locations are an `Array` in their original order. |
| StyleAttributes.Required | Pod/Classes/Style.swift:146-151 | An absent key leaves the default. A present key that does not decode traps. |
| StyleAttributes.DecodeGradient | Pod/Classes/Style.swift:139-156 | Anything but a `Dict` is nil. Missing `"colors"` or `"locations"` give empty sequences, and a missing name gives nil. A present array that does not decode traps. Otherwise the fields are the decoded arrays. |
| StyleAttributes.GradientRoundTrip | Pod/Classes/Style.swift:129-156 | Decoding a serialised gradient gives back its name, its colour stops in order and its locations in order. |
| StyleAttributes.GradientColorsNotArrayTraps | Pod/Classes/Style.swift:146-148 | A `"colors"` value that is not an array reaches the force-unwrap and traps. |
| Registry.DrawableStyleForName | Pod/Classes/DynUI.swift:19-24 | The result is nil iff no entry has the name. A result's name equals the query, and it is the first entry with that name. |
| Registry.FirstWithNameUnique | Pod/Classes/DynUI.swift:20 | There is only one first match, so the lookup is determined by the list and the name. |
| Registry.EmptyRegistryFindsNothing | Pod/Classes/DynUI.swift:17-23 | An empty registry never has a match. |
| Registry.AppendKeepsFirstMatch | Pod/Classes/DynUI.swift:17-21 | A later registration never shadows an earlier entry with the same name. |

## Left out

- Rx observation, subscriptions and `DisposeBag`s are not modelled. The observer is a
  function the host calls with the new bounds (`RenderCache.OnBoundsChanged`), and the
  view's bounds are a parameter of every transition.
- Associated-object storage is not modelled; its properties are fields of `ViewState`.
- `OverlayView` mirroring of superview, position, bounds, transform and alpha is not
  modelled, because it is only event plumbing.
- `dyn_teardown` is not modelled. It is never called in this code.
- The 0.2 s `dispatch_after` of the highlight observer is not modelled as a clock. The
  deferred application is the separate event `RenderCache.OnHighlightChanged`, which the host
  calls when the delay has passed. The highlight state is a parameter.
- `UIView.animateWithDuration` is not modelled. Its animation block runs straight away, so
  only its effect is modelled.
- Actual drawing is not modelled: `UIImage.drawImage`, `imageByCropping`, the style's own
  `render`, the arcs' pixels, and `stretchableImageWithLeftCapWidth`. These are graphics
  services. Rasters and popover images are opaque tokens that record their inputs, and arc
  angles are quarter turns.
- The UIButton text-style setter forwards to its title label and sets the title colour.
  This is not modelled: the model records only the assigned text style. Text.swift's label
  and text-field wiring is UIKit glue.
- The empty `draw` methods of `Fill`, `Border`, `Shadow` and the attributes are not
  modelled.
- Extensions.swift is fully commented out and Styleable.swift holds only marker protocols,
  so neither is modelled.
- The demo view controller is not modelled.
- `DynUI.renderQueue` (a concurrency primitive) and `log` (console output) are not modelled.
- The serialisation of UIColor, CGPoint and String is not part of this model. These codecs
  are parameters, and their round-trip is a precondition.
- The `Serialized` enum's definition is not part of this model. Only its `Dict`, `Str` and
  `Array` cases are modelled.
- The Array extension's `serialize`/`fromSerialized` is not part of this model. It is
  assumed to work element by element (`Serialization.DecodeItems`).
- `CAP_INSET` is declared in Popover.swift but never used, so it is not modelled.
- `arrowHeight()` and `arrowBase()` only return the constants `ArrowHeight` and
  `ArrowBase`, so they are not modelled separately.
- RenderCache.Rasterize: the counter is an unbounded `nat`. The model does not include
  Swift's trap on `Int` overflow, which would need 2^63 renders.
- Registry.DrawableStyleForName: the source's lookup does not modify the registry. The
  model states no separate property for this, because Dafny sequences are immutable values.
  Names are compared code point by code point. Swift's `String ==` compares under Unicode
  canonical equivalence, so "e" followed by U+0301 matches "é" (U+00E9) in the source but not
  in the model. Unicode normalisation is not modelled.
- RenderCache.RenderDoesNotFilterZeroSize: the model assumes that drawing at a zero size
  produces a raster. UIKit may return no image from a zero-size image context, and
  `UIImage.drawImage` would then trap when it returns that value as non-optional. The lemma
  states only that the counter goes up and the drawing step is reached.
- Popover.GetBgImage: the same assumption holds for a zero-size `size`. The image is an
  opaque token, and whether UIKit could create it is not modelled.

=== FILE: geometry.dfy ===
/** Core Graphics value types over `real` (CGFloat) and the rect helpers of Helpers.swift. */
module Geometry {

  datatype Point = Point(x: real, y: real)

  datatype Size = Size(width: real, height: real)

  datatype Rect = Rect(origin: Point, size: Size) {
    function MinX(): real { origin.x }
    function MinY(): real { origin.y }
    function MaxX(): real { origin.x + size.width }
    function MaxY(): real { origin.y + size.height }
    function MidX(): real { origin.x + size.width / 2.0 }
    function MidY(): real { origin.y + size.height / 2.0 }

    /** `CGRectGetMaxX`: the larger x edge, which is the origin's own x for a negative width. */
    function GetMaxX(): (r: real)
      ensures r >= MinX() && r >= MaxX()
      ensures r == MinX() || r == MaxX()
    {
      if size.width >= 0.0 then origin.x + size.width else origin.x
    }

    /** `CGRectGetMaxY`: the larger y edge, which is the origin's own y for a negative height. */
    function GetMaxY(): (r: real)
      ensures r >= MinY() && r >= MaxY()
      ensures r == MinY() || r == MaxY()
    {
      if size.height >= 0.0 then origin.y + size.height else origin.y
    }

    /** `CGRectStandardize`: the same region with a non-negative width and height. */
    function Standardized(): (r: Rect)
      ensures r.size.width >= 0.0 && r.size.height >= 0.0
      ensures r.MaxX() == GetMaxX() && r.MaxY() == GetMaxY()
      ensures r.MinX() <= MinX() && r.MinX() <= MaxX() && (r.MinX() == MinX() || r.MinX() == MaxX())
      ensures r.MinY() <= MinY() && r.MinY() <= MaxY() && (r.MinY() == MinY() || r.MinY() == MaxY())
    {
      Rect(Point(if size.width >= 0.0 then origin.x else origin.x + size.width,
                 if size.height >= 0.0 then origin.y else origin.y + size.height),
           Size(if size.width >= 0.0 then size.width else -size.width,
                if size.height >= 0.0 then size.height else -size.height))
    }
  }

  datatype EdgeInsets = EdgeInsets(top: real, left: real, bottom: real, right: real)

  /** CGRectMake. */
  function MakeRect(x: real, y: real, width: real, height: real): Rect
  {
    Rect(Point(x, y), Size(width, height))
  }

  /** CGRect `==` (`CGRectEqualToRect`): the two rects cover the same region once standardised. */
  predicate SameRect(a: Rect, b: Rect)
  {
    a.Standardized() == b.Standardized()
  }

  /** A rect with non-negative extents is already standardised, so it is the same as another such rect only when equal. */
  lemma SameRectNonNegative(a: Rect, b: Rect)
    requires a.size.width >= 0.0 && a.size.height >= 0.0
    requires b.size.width >= 0.0 && b.size.height >= 0.0
    ensures a.Standardized() == a
    ensures SameRect(a, b) <==> a == b
  {
  }

  /** Two rects are the same exactly when their smaller and larger edges agree on both axes. */
  lemma SameRectIffSameEdges(a: Rect, b: Rect)
    ensures SameRect(a, b) <==>
      && a.Standardized().MinX() == b.Standardized().MinX() && a.GetMaxX() == b.GetMaxX()
      && a.Standardized().MinY() == b.Standardized().MinY() && a.GetMaxY() == b.GetMaxY()
  {
    var sa, sb := a.Standardized(), b.Standardized();
    if sa.MinX() == sb.MinX() && a.GetMaxX() == b.GetMaxX() && sa.MinY() == sb.MinY() && a.GetMaxY() == b.GetMaxY() {
      assert sa.size.width == sb.size.width && sa.size.height == sb.size.height;
    }
  }

  /** A rect and its mirror image through the far corner are the same rect. */
  lemma SameRectFlipped()
    ensures SameRect(MakeRect(0.0, 0.0, 10.0, 10.0), MakeRect(10.0, 10.0, -10.0, -10.0))
    ensures MakeRect(0.0, 0.0, 10.0, 10.0) != MakeRect(10.0, 10.0, -10.0, -10.0)
  {
  }

  /** CGRectZero. */
  const ZeroRect: Rect := MakeRect(0.0, 0.0, 0.0, 0.0)

  /** Both extents strictly positive: the `width > 0 && height > 0` test of the render path. */
  predicate Positive(s: Size)
  {
    s.width > 0.0 && s.height > 0.0
  }

  /**
   * `CGRect.centeredIn(rect)`: a rect of this size whose centre lies at the centre of
   * `rect`'s extent measured from (0,0); `rect`'s own origin plays no part.
   */
  function CenteredIn(self: Rect, rect: Rect): (r: Rect)
    ensures r.size == self.size
    ensures r.MidX() == rect.size.width / 2.0
    ensures r.MidY() == rect.size.height / 2.0
    // equal margins on both sides of each axis
    ensures r.MinX() == rect.size.width - r.MaxX()
    ensures r.MinY() == rect.size.height - r.MaxY()
  {
    MakeRect((rect.size.width - self.size.width) / 2.0,
             (rect.size.height - self.size.height) / 2.0,
             self.size.width, self.size.height)
  }

  /** Centring depends only on the two sizes, never on either origin. */
  lemma CenteredInIgnoresOrigins(self: Rect, rect: Rect, o1: Point, o2: Point)
    ensures CenteredIn(self, rect) == CenteredIn(self.(origin := o1), rect.(origin := o2))
  {
  }

  /** A rect centred in a rect of the same size sits at (0,0). */
  lemma CenteredInSameSize(self: Rect, rect: Rect)
    requires self.size == rect.size
    ensures CenteredIn(self, rect).origin == Point(0.0, 0.0)
  {
  }

  /** The centring is unique: any rect of this size with equal margins is the centred one. */
  lemma CenteredInUnique(self: Rect, rect: Rect, r: Rect)
    requires r.size == self.size
    requires r.MinX() == rect.size.width - r.MaxX()
    requires r.MinY() == rect.size.height - r.MaxY()
    ensures r == CenteredIn(self, rect)
  {
  }
}

=== FILE: popover.dfy ===
/**
 * The popover background of Popover.swift: where `layoutSubviews` puts the arrow and the
 * arrow-free body, and the outline `getBgImage` traces around the body with the arrow
 * triangle spliced into the matching side.
 */
module Popover {
  import opened Wrappers
  import opened Geometry

  const ArrowBase: real := 38.0
  const ArrowHeight: real := 20.0

  /** Inset applied around the body before it is drawn. */
  const BodyInset: real := 1.0

  /** UIPopoverArrowDirection, as its raw bit mask. */
  datatype ArrowDirection = ArrowDirection(rawValue: nat)

  const Up: ArrowDirection := ArrowDirection(1)
  const Down: ArrowDirection := ArrowDirection(2)
  const Left: ArrowDirection := ArrowDirection(4)
  const Right: ArrowDirection := ArrowDirection(8)
  /** The class's initial direction; it falls to the `default` branch like every non-cardinal mask. */
  const AnyDirection: ArrowDirection := ArrowDirection(15)

  predicate IsCardinal(d: ArrowDirection)
  {
    d == Up || d == Down || d == Left || d == Right
  }

  /** `contentViewInsets`: the configured insets, else 10 pt on every side. */
  function ContentViewInsets(configured: Option<EdgeInsets>): (r: EdgeInsets)
    ensures configured.Some? ==> r == configured.value
    ensures configured.None? ==> r.top == r.left == r.bottom == r.right == 10.0
  {
    configured.GetOr(EdgeInsets(10.0, 10.0, 10.0, 10.0))
  }

  /**
   * What `layoutSubviews` computes: the arrow rect, the arrow-free region
   * (`_left`, `_top`, `_width`, `_height`) and the body rect handed to `getBgImage`.
   */
  datatype Layout = Layout(arrowRect: Rect, region: Rect, bgRect: Rect)

  /** `r` shrunk by `d` on every side. */
  function Inset(r: Rect, d: real): (s: Rect)
    ensures s.MinX() == r.MinX() + d && s.MaxX() == r.MaxX() - d
    ensures s.MinY() == r.MinY() + d && s.MaxY() == r.MaxY() - d
  {
    MakeRect(r.origin.x + d, r.origin.y + d, r.size.width - 2.0 * d, r.size.height - 2.0 * d)
  }

  /** The frame's own rect, at (0,0). */
  function FrameRect(frame: Size): Rect
  {
    Rect(Point(0.0, 0.0), frame)
  }

  function LayoutSubviews(frame: Size, direction: ArrowDirection, arrowOffset: real): (l: Layout)
    // the drawn body is always the arrow-free region with a 1-pt inset
    ensures l.bgRect == Inset(l.region, BodyInset)
    // a non-cardinal direction has no arrow and the whole frame as its region
    ensures !IsCardinal(direction) ==> l.arrowRect == ZeroRect && l.region == FrameRect(frame)
    // a cardinal one shrinks exactly one dimension, by the arrow height
    ensures IsCardinal(direction) ==>
      || (l.region.size == Size(frame.width, frame.height - ArrowHeight))
      || (l.region.size == Size(frame.width - ArrowHeight, frame.height))
    // the region and the arrow's strip always meet the frame's far edges
    ensures l.region.MaxX() == frame.width || (direction == Right && l.arrowRect.MaxX() == frame.width)
    ensures l.region.MaxY() == frame.height || (direction == Down && l.arrowRect.MaxY() == frame.height)
  {
    var w := frame.width;
    var h := frame.height;
    if direction == Up then
      var x := (w / 2.0 + arrowOffset) - ArrowBase / 2.0;
      var region := MakeRect(0.0, ArrowHeight, w, h - ArrowHeight);
      Layout(MakeRect(x, 0.0, ArrowBase, ArrowHeight), region, Inset(region, BodyInset))
    else if direction == Down then
      var x := (w / 2.0 + arrowOffset) - ArrowBase / 2.0;
      var region := MakeRect(0.0, 0.0, w, h - ArrowHeight);
      Layout(MakeRect(x, h - ArrowHeight, ArrowBase, ArrowHeight), region, Inset(region, BodyInset))
    else if direction == Left then
      var y := (h / 2.0 + arrowOffset) - ArrowBase / 2.0;
      var region := MakeRect(ArrowHeight, 0.0, w - ArrowHeight, h);
      Layout(MakeRect(0.0, y, ArrowHeight, ArrowBase), region, Inset(region, BodyInset))
    else if direction == Right then
      var y := (h / 2.0 + arrowOffset) - ArrowBase / 2.0;
      var region := MakeRect(0.0, 0.0, w - ArrowHeight, h);
      Layout(MakeRect(w - ArrowHeight, y, ArrowHeight, ArrowBase), region, Inset(region, BodyInset))
    else
      var region := FrameRect(frame);
      Layout(ZeroRect, region, Inset(region, BodyInset))
  }

  /** Up: the arrow occupies the top strip, centred on the offset mid-width, and the region starts below it. */
  lemma LayoutUp(frame: Size, offset: real)
    ensures var l := LayoutSubviews(frame, Up, offset);
      && l.arrowRect == MakeRect(frame.width / 2.0 + offset - ArrowBase / 2.0, 0.0, ArrowBase, ArrowHeight)
      && l.arrowRect.MidX() == frame.width / 2.0 + offset
      && l.region.MinY() == l.arrowRect.MaxY() == ArrowHeight
      && l.region.size == Size(frame.width, frame.height - ArrowHeight)
      && l.region.MaxY() == frame.height
  {
  }

  /** Down: the region keeps its top, and the arrow occupies the bottom strip just below it. */
  lemma LayoutDown(frame: Size, offset: real)
    ensures var l := LayoutSubviews(frame, Down, offset);
      && l.arrowRect == MakeRect(frame.width / 2.0 + offset - ArrowBase / 2.0, frame.height - ArrowHeight, ArrowBase, ArrowHeight)
      && l.arrowRect.MidX() == frame.width / 2.0 + offset
      && l.region.MinY() == 0.0
      && l.arrowRect.MinY() == l.region.MaxY()
      && l.arrowRect.MaxY() == frame.height
  {
  }

  /** Left: the arrow occupies the left strip, centred on the offset mid-height; the region starts right of it. */
  lemma LayoutLeft(frame: Size, offset: real)
    ensures var l := LayoutSubviews(frame, Left, offset);
      && l.arrowRect == MakeRect(0.0, frame.height / 2.0 + offset - ArrowBase / 2.0, ArrowHeight, ArrowBase)
      && l.arrowRect.MidY() == frame.height / 2.0 + offset
      && l.region.MinX() == l.arrowRect.MaxX() == ArrowHeight
      && l.region.size == Size(frame.width - ArrowHeight, frame.height)
  {
  }

  /** Right: the region keeps its left edge, and the arrow occupies the right strip just beyond it. */
  lemma LayoutRight(frame: Size, offset: real)
    ensures var l := LayoutSubviews(frame, Right, offset);
      && l.arrowRect == MakeRect(frame.width - ArrowHeight, frame.height / 2.0 + offset - ArrowBase / 2.0, ArrowHeight, ArrowBase)
      && l.arrowRect.MidY() == frame.height / 2.0 + offset
      && l.region.MinX() == 0.0
      && l.arrowRect.MinX() == l.region.MaxX()
      && l.arrowRect.MaxX() == frame.width
  {
  }

  /** A dimension of the region differs from the frame's exactly when the direction is cardinal. */
  lemma LayoutShrinksIffCardinal(frame: Size, direction: ArrowDirection, offset: real)
    ensures LayoutSubviews(frame, direction, offset).region.size != frame <==> IsCardinal(direction)
  {
  }

  // ----- the outline traced by getBgImage -----

  datatype Corner = TopLeft | TopRight | BottomRight | BottomLeft

  /** The parts of the popover's view style the outline reads. */
  datatype PopoverStyle = PopoverStyle(cornerRadius: real, roundedCorners: set<Corner>)

  /**
   * A path element. Arc angles are quarter turns clockwise from the positive x axis in
   * top-left-origin coordinates: 0, pi/2, pi and 3pi/2 are 0, 1, 2 and 3.
   */
  datatype PathOp =
    | MoveTo(to: Point)
    | LineTo(to: Point)
    | Arc(center: Point, radius: real, startQuarter: nat, endQuarter: nat)
    | ClosePath

  /** The point at a quarter-turn angle on a circle. */
  function OnCircle(center: Point, radius: real, quarter: nat): Point
  {
    match quarter % 4
    case 0 => Point(center.x + radius, center.y)
    case 1 => Point(center.x, center.y + radius)
    case 2 => Point(center.x - radius, center.y)
    case _ => Point(center.x, center.y - radius)
  }

  /**
   * Where the current point is after an element. A `ClosePath` returns the current point to
   * the start of its subpath, which this per-element view cannot see; in the outlines drawn
   * here nothing follows the `ClosePath`, so its value is never used and is given as (0,0).
   */
  function EndPoint(op: PathOp): Point
  {
    match op
    case MoveTo(p) => p
    case LineTo(p) => p
    case Arc(c, r, _, e) => OnCircle(c, r, e)
    case ClosePath => Point(0.0, 0.0)
  }

  /** `path.currentPoint`: the end of the last element. */
  function CurrentPoint(ops: seq<PathOp>): Point
    requires |ops| > 0
  {
    EndPoint(ops[|ops| - 1])
  }

  /** `addArcWithCenter` with the centre given relative to the current point, as the source writes it. */
  function AddArc(ops: seq<PathOp>, dx: real, dy: real, radius: real, startQuarter: nat, endQuarter: nat)
    : (r: seq<PathOp>)
    requires |ops| > 0
    ensures |r| == |ops| + 1 && r[..|ops|] == ops
    ensures r[|ops|] == Arc(Point(CurrentPoint(ops).x + dx, CurrentPoint(ops).y + dy), radius, startQuarter, endQuarter)
  {
    var p := CurrentPoint(ops);
    ops + [Arc(Point(p.x + dx, p.y + dy), radius, startQuarter, endQuarter)]
  }

  /** Either an arc round the corner or a line to its sharp point. */
  function TurnCorner(ops: seq<PathOp>, style: PopoverStyle, corner: Corner, dx: real, dy: real,
                      startQuarter: nat, endQuarter: nat, sharp: Point): (r: seq<PathOp>)
    requires |ops| > 0
    ensures |r| == |ops| + 1 && r[..|ops|] == ops
    ensures corner in style.roundedCorners ==>
      r[|ops|] == Arc(Point(CurrentPoint(ops).x + dx, CurrentPoint(ops).y + dy), style.cornerRadius, startQuarter, endQuarter)
    ensures corner !in style.roundedCorners ==> r[|ops|] == LineTo(sharp)
  {
    if corner in style.roundedCorners then AddArc(ops, dx, dy, style.cornerRadius, startQuarter, endQuarter)
    else ops + [LineTo(sharp)]
  }

  /** The three triangle vertices spliced into one side: base corner, apex, other base corner. */
  function ArrowVertices(direction: ArrowDirection, a: Rect, bg: Rect): (vs: seq<Point>)
    ensures |vs| == (if IsCardinal(direction) then 3 else 0)
    // an isosceles triangle: the apex sits midway along the base, which spans the arrow rect
    // in the clockwise direction of the outline
    ensures direction == Up ==> vs[1].x == (vs[0].x + vs[2].x) / 2.0 && vs[2].x - vs[0].x == a.size.width
    ensures direction == Down ==> vs[1].x == (vs[0].x + vs[2].x) / 2.0 && vs[0].x - vs[2].x == a.size.width
    ensures direction == Right ==> vs[1].y == (vs[0].y + vs[2].y) / 2.0 && vs[2].y - vs[0].y == a.size.height
    ensures direction == Left ==> vs[1].y == (vs[0].y + vs[2].y) / 2.0 && vs[0].y - vs[2].y == a.size.height
    // the apex leaves the body from the arrow rect's outer edge (Up: the 1-pt line)
    ensures direction == Down ==> vs[1].y == a.MaxY()
    ensures direction == Right ==> vs[1].x == a.MaxX()
    ensures direction == Left ==> vs[1].x == a.MinX()
    ensures direction == Up ==> vs[1].y == 1.0
    // the apex is centred on the arrow rect along the side
    ensures direction == Up || direction == Down ==> vs[1].x == a.MidX()
    ensures direction == Left || direction == Right ==> vs[1].y == a.MidY()
    // the base corners lie on the body's edge on the arrow's side
    ensures direction == Up ==> vs[0].y == vs[2].y == bg.MinY()
    ensures direction == Down ==> vs[0].y == vs[2].y == bg.MaxY()
    ensures direction == Left ==> vs[0].x == vs[2].x == bg.MinX()
    ensures direction == Right ==> vs[0].x == vs[2].x == bg.MaxX()
  {
    if direction == Up then
      [Point(a.MinX(), bg.MinY()), Point(a.MidX(), 1.0), Point(a.MaxX(), bg.MinY())]
    else if direction == Right then
      [Point(bg.MaxX(), a.MinY()), Point(a.MaxX(), a.MidY()), Point(bg.MaxX(), a.MaxY())]
    else if direction == Down then
      [Point(a.MaxX(), bg.MaxY()), Point(a.MidX(), a.MaxY()), Point(a.MinX(), bg.MaxY())]
    else if direction == Left then
      [Point(bg.MinX(), a.MaxY()), Point(a.MinX(), a.MidY()), Point(bg.MinX(), a.MinY())]
    else []
  }

  /** The line elements of one side's arrow, or none when the arrow points elsewhere. */
  function ArrowOn(side: ArrowDirection, direction: ArrowDirection, a: Rect, bg: Rect): (r: seq<PathOp>)
    ensures |r| == (if direction == side && IsCardinal(side) then 3 else 0)
    ensures forall i :: 0 <= i < |r| ==> r[i] == LineTo(ArrowVertices(direction, a, bg)[i])
  {
    if direction == side && IsCardinal(side) then
      var vs := ArrowVertices(direction, a, bg);
      [LineTo(vs[0]), LineTo(vs[1]), LineTo(vs[2])]
    else []
  }

  /** One corner of the body followed by the arrow, when the arrow points out of the side after it. */
  function CornerThenArrow(ops: seq<PathOp>, style: PopoverStyle, corner: Corner, dx: real, dy: real,
                           startQuarter: nat, endQuarter: nat, sharp: Point,
                           side: ArrowDirection, direction: ArrowDirection, a: Rect, bg: Rect): (r: seq<PathOp>)
    requires |ops| > 0
    ensures |r| == |ops| + 1 + (if direction == side && IsCardinal(side) then 3 else 0)
    ensures r[..|ops|] == ops
    ensures r[..|ops| + 1] == TurnCorner(ops, style, corner, dx, dy, startQuarter, endQuarter, sharp)
    ensures r[|ops| + 1..] == ArrowOn(side, direction, a, bg)
  {
    TurnCorner(ops, style, corner, dx, dy, startQuarter, endQuarter, sharp) + ArrowOn(side, direction, a, bg)
  }

  /** The outline up to the end of the top-left corner and any upward arrow. */
  function TopLeftPart(style: PopoverStyle, direction: ArrowDirection, a: Rect, bg: Rect): (ops: seq<PathOp>)
    ensures |ops| == 2 + (if direction == Up then 3 else 0)
    ensures ops[2..] == ArrowOn(Up, direction, a, bg)
    ensures ops[0] == MoveTo(Point(bg.MinX(), bg.MinY() + style.cornerRadius))
  {
    var start := [MoveTo(Point(bg.MinX(), bg.MinY() + style.cornerRadius))];
    CornerThenArrow(start, style, TopLeft, style.cornerRadius, 0.0, 2, 3, bg.origin, Up, direction, a, bg)
  }

  /** ... then along the top edge, round the top-right corner and any rightward arrow. */
  function TopRightPart(style: PopoverStyle, direction: ArrowDirection, a: Rect, bg: Rect): (ops: seq<PathOp>)
    ensures |ops| == 4 + (if direction == Up || direction == Right then 3 else 0)
    ensures ops[..|TopLeftPart(style, direction, a, bg)|] == TopLeftPart(style, direction, a, bg)
    ensures direction != Up ==> ops[4..] == ArrowOn(Right, direction, a, bg)
    ensures ops[0] == MoveTo(Point(bg.MinX(), bg.MinY() + style.cornerRadius))
  {
    var prefix := TopLeftPart(style, direction, a, bg) + [LineTo(Point(bg.MaxX() - style.cornerRadius, bg.MinY()))];
    CornerThenArrow(prefix, style, TopRight, 0.0, style.cornerRadius, 3, 0, Point(bg.MaxX(), bg.MinY()), Right, direction, a, bg)
  }

  /** ... then down the right edge, round the bottom-right corner and any downward arrow. */
  function BottomRightPart(style: PopoverStyle, direction: ArrowDirection, a: Rect, bg: Rect): (ops: seq<PathOp>)
    ensures |ops| == 6 + (if direction == Up || direction == Right || direction == Down then 3 else 0)
    ensures ops[..|TopRightPart(style, direction, a, bg)|] == TopRightPart(style, direction, a, bg)
    ensures direction != Up && direction != Right ==> ops[6..] == ArrowOn(Down, direction, a, bg)
    ensures ops[0] == MoveTo(Point(bg.MinX(), bg.MinY() + style.cornerRadius))
  {
    var prefix := TopRightPart(style, direction, a, bg) + [LineTo(Point(bg.MaxX(), bg.MaxY() - style.cornerRadius))];
    CornerThenArrow(prefix, style, BottomRight, -style.cornerRadius, 0.0, 0, 1, Point(bg.GetMaxX(), bg.GetMaxY()), Down, direction, a, bg)
  }

  /** ... then along the bottom edge, round the bottom-left corner and any leftward arrow. */
  function BottomLeftPart(style: PopoverStyle, direction: ArrowDirection, a: Rect, bg: Rect): (ops: seq<PathOp>)
    ensures |ops| == 8 + (if IsCardinal(direction) then 3 else 0)
    ensures ops[..|BottomRightPart(style, direction, a, bg)|] == BottomRightPart(style, direction, a, bg)
    ensures direction != Up && direction != Right && direction != Down ==> ops[8..] == ArrowOn(Left, direction, a, bg)
    ensures ops[0] == MoveTo(Point(bg.MinX(), bg.MinY() + style.cornerRadius))
  {
    var prefix := BottomRightPart(style, direction, a, bg) + [LineTo(Point(bg.MinX() + style.cornerRadius, bg.MaxY()))];
    CornerThenArrow(prefix, style, BottomLeft, 0.0, -style.cornerRadius, 1, 2, Point(bg.MinX(), bg.GetMaxY()), Left, direction, a, bg)
  }

  /** The path of `getBgImage`, clockwise from the top-left corner, closed back to its start. */
  function Outline(style: PopoverStyle, direction: ArrowDirection, a: Rect, bg: Rect): (ops: seq<PathOp>)
    ensures |ops| == 9 + (if IsCardinal(direction) then 3 else 0)
    ensures ops[0] == MoveTo(Point(bg.MinX(), bg.MinY() + style.cornerRadius))
    ensures ops[|ops| - 1] == ClosePath
    ensures ops[..|ops| - 1] == BottomLeftPart(style, direction, a, bg)
  {
    BottomLeftPart(style, direction, a, bg) + [ClosePath]
  }

  /** The opaque image `getBgImage` draws: the outline filled and stroked with the style. */
  datatype BgImage = BgImage(size: Size, outline: seq<PathOp>, style: PopoverStyle)

  /** `getBgImage`: no popover style, no image. */
  function GetBgImage(style: Option<PopoverStyle>, size: Size, direction: ArrowDirection, arrowRect: Rect, bgRect: Rect)
    : (r: Option<BgImage>)
    ensures r.Some? <==> style.Some?
    ensures r.Some? ==> r.value.size == size && r.value.style == style.value
    ensures r.Some? ==> r.value.outline == Outline(style.value, direction, arrowRect, bgRect)
  {
    match style
    case None => None
    case Some(s) => Some(BgImage(size, Outline(s, direction, arrowRect, bgRect), s))
  }

  /** The image assigned in `layoutSubviews`, drawn from the computed layout over the view's bounds. */
  function BackgroundImage(style: Option<PopoverStyle>, frame: Size, bounds: Size, direction: ArrowDirection, offset: real)
    : (r: Option<BgImage>)
    ensures r.Some? <==> style.Some?
    ensures r.Some? ==> r.value.size == bounds && r.value.style == style.value
    ensures var l := LayoutSubviews(frame, direction, offset);
      r.Some? ==> r.value.outline == Outline(style.value, direction, l.arrowRect, l.bgRect)
  {
    var l := LayoutSubviews(frame, direction, offset);
    GetBgImage(style, bounds, direction, l.arrowRect, l.bgRect)
  }

  /** The element at `i`, when an arc, starts where element `i - 1` ends. */
  predicate ArcContinuesAt(ops: seq<PathOp>, i: int)
    requires 1 <= i < |ops|
  {
    ops[i].Arc? ==> OnCircle(ops[i].center, ops[i].radius, ops[i].startQuarter) == EndPoint(ops[i - 1])
  }

  /** Every arc starts where the path currently is: the source's centre offsets agree with its angles. */
  predicate ArcsContinue(ops: seq<PathOp>)
  {
    forall i :: 1 <= i < |ops| ==> ArcContinuesAt(ops, i)
  }

  lemma {:induction false} ArcsContinueAppend(ops: seq<PathOp>, more: seq<PathOp>)
    requires |ops| > 0 && ArcsContinue(ops)
    requires forall i :: 0 <= i < |more| ==> !more[i].Arc?
    ensures ArcsContinue(ops + more)
  {
    var all := ops + more;
    forall i | 1 <= i < |all|
      ensures ArcContinuesAt(all, i)
    {
      if i < |ops| {
        assert ArcContinuesAt(ops, i);
        assert all[i] == ops[i] && all[i - 1] == ops[i - 1];
      } else {
        assert all[i] == more[i - |ops|];
      }
    }
  }

  lemma {:induction false} TurnCornerContinues(ops: seq<PathOp>, style: PopoverStyle, corner: Corner, dx: real, dy: real,
                                               s: nat, e: nat, sharp: Point)
    requires |ops| > 0 && ArcsContinue(ops)
    requires OnCircle(Point(CurrentPoint(ops).x + dx, CurrentPoint(ops).y + dy), style.cornerRadius, s) == CurrentPoint(ops)
    ensures ArcsContinue(TurnCorner(ops, style, corner, dx, dy, s, e, sharp))
  {
    var r := TurnCorner(ops, style, corner, dx, dy, s, e, sharp);
    forall i | 1 <= i < |r|
      ensures ArcContinuesAt(r, i)
    {
      if i < |ops| {
        assert ArcContinuesAt(ops, i);
        assert r[i] == ops[i] && r[i - 1] == ops[i - 1];
      } else {
        assert r[i - 1] == ops[|ops| - 1];
      }
    }
  }

  lemma CornerThenArrowContinues(ops: seq<PathOp>, style: PopoverStyle, corner: Corner, dx: real, dy: real,
                                 s: nat, e: nat, sharp: Point, side: ArrowDirection, direction: ArrowDirection, a: Rect, bg: Rect)
    requires |ops| > 0 && ArcsContinue(ops)
    requires OnCircle(Point(CurrentPoint(ops).x + dx, CurrentPoint(ops).y + dy), style.cornerRadius, s) == CurrentPoint(ops)
    ensures ArcsContinue(CornerThenArrow(ops, style, corner, dx, dy, s, e, sharp, side, direction, a, bg))
  {
    TurnCornerContinues(ops, style, corner, dx, dy, s, e, sharp);
    ArcsContinueAppend(TurnCorner(ops, style, corner, dx, dy, s, e, sharp), ArrowOn(side, direction, a, bg));
  }

  /** A straight run to `p`, then a corner whose arc is centred relative to `p`, then the side's arrow. */
  lemma {:induction false} SideContinues(ops: seq<PathOp>, p: Point, style: PopoverStyle, corner: Corner, dx: real, dy: real,
                                         s: nat, e: nat, sharp: Point, side: ArrowDirection, direction: ArrowDirection, a: Rect, bg: Rect)
    requires |ops| > 0 && ArcsContinue(ops)
    requires OnCircle(Point(p.x + dx, p.y + dy), style.cornerRadius, s) == p
    ensures ArcsContinue(CornerThenArrow(ops + [LineTo(p)], style, corner, dx, dy, s, e, sharp, side, direction, a, bg))
  {
    ArcsContinueAppend(ops, [LineTo(p)]);
    CornerThenArrowContinues(ops + [LineTo(p)], style, corner, dx, dy, s, e, sharp, side, direction, a, bg);
  }

  lemma TopLeftPartContinues(style: PopoverStyle, direction: ArrowDirection, a: Rect, bg: Rect)
    ensures ArcsContinue(TopLeftPart(style, direction, a, bg))
  {
    var start := [MoveTo(Point(bg.MinX(), bg.MinY() + style.cornerRadius))];
    CornerThenArrowContinues(start, style, TopLeft, style.cornerRadius, 0.0, 2, 3, bg.origin, Up, direction, a, bg);
  }

  lemma TopRightPartContinues(style: PopoverStyle, direction: ArrowDirection, a: Rect, bg: Rect)
    ensures ArcsContinue(TopRightPart(style, direction, a, bg))
  {
    TopLeftPartContinues(style, direction, a, bg);
    SideContinues(TopLeftPart(style, direction, a, bg), Point(bg.MaxX() - style.cornerRadius, bg.MinY()),
                  style, TopRight, 0.0, style.cornerRadius, 3, 0, Point(bg.MaxX(), bg.MinY()), Right, direction, a, bg);
  }

  lemma BottomRightPartContinues(style: PopoverStyle, direction: ArrowDirection, a: Rect, bg: Rect)
    ensures ArcsContinue(BottomRightPart(style, direction, a, bg))
  {
    TopRightPartContinues(style, direction, a, bg);
    SideContinues(TopRightPart(style, direction, a, bg), Point(bg.MaxX(), bg.MaxY() - style.cornerRadius),
                  style, BottomRight, -style.cornerRadius, 0.0, 0, 1, Point(bg.GetMaxX(), bg.GetMaxY()), Down, direction, a, bg);
    assert BottomRightPart(style, direction, a, bg)
        == CornerThenArrow(TopRightPart(style, direction, a, bg) + [LineTo(Point(bg.MaxX(), bg.MaxY() - style.cornerRadius))],
                           style, BottomRight, -style.cornerRadius, 0.0, 0, 1, Point(bg.GetMaxX(), bg.GetMaxY()), Down, direction, a, bg);
  }

  lemma BottomLeftPartContinues(style: PopoverStyle, direction: ArrowDirection, a: Rect, bg: Rect)
    ensures ArcsContinue(BottomLeftPart(style, direction, a, bg))
  {
    var p := Point(bg.MinX() + style.cornerRadius, bg.MaxY());
    BottomRightPartContinues(style, direction, a, bg);
    SideContinues(BottomRightPart(style, direction, a, bg), p,
                  style, BottomLeft, 0.0, -style.cornerRadius, 1, 2, Point(bg.MinX(), bg.GetMaxY()), Left, direction, a, bg);
    assert BottomLeftPart(style, direction, a, bg)
        == CornerThenArrow(BottomRightPart(style, direction, a, bg) + [LineTo(p)],
                           style, BottomLeft, 0.0, -style.cornerRadius, 1, 2, Point(bg.MinX(), bg.GetMaxY()), Left, direction, a, bg);
  }

  /** Every corner arc of the outline begins exactly where the preceding element ends. */
  lemma OutlineArcsContinue(style: PopoverStyle, direction: ArrowDirection, a: Rect, bg: Rect)
    ensures ArcsContinue(Outline(style, direction, a, bg))
  {
    BottomLeftPartContinues(style, direction, a, bg);
    ArcsContinueAppend(BottomLeftPart(style, direction, a, bg), [ClosePath]);
  }

  /** Where the arrow's three vertices sit in the outline: on the side the arrow points from. */
  function ArrowIndex(direction: ArrowDirection): nat
  {
    if direction == Up then 2 else if direction == Right then 4 else if direction == Down then 6 else 8
  }

  /**
   * For a cardinal direction the outline carries the triangle's three vertices, in order,
   * on that side and only there; otherwise it carries none (see `Outline`'s length).
   */
  lemma OutlineArrowVertices(style: PopoverStyle, direction: ArrowDirection, a: Rect, bg: Rect, i: nat)
    requires IsCardinal(direction) && i < 3
    ensures ArrowIndex(direction) + i < |Outline(style, direction, a, bg)|
    ensures Outline(style, direction, a, bg)[ArrowIndex(direction) + i] == LineTo(ArrowVertices(direction, a, bg)[i])
  {
    var o := Outline(style, direction, a, bg);
    var tl := TopLeftPart(style, direction, a, bg);
    var tr := TopRightPart(style, direction, a, bg);
    var br := BottomRightPart(style, direction, a, bg);
    var bl := BottomLeftPart(style, direction, a, bg);
    var k := ArrowIndex(direction) + i;
    assert o[k] == bl[k];
    if direction == Up {
      assert bl[k] == br[k] == tr[k] == tl[k] == tl[2..][i];
    } else if direction == Right {
      assert bl[k] == br[k] == tr[k] == tr[4..][i];
    } else if direction == Down {
      assert bl[k] == br[k] == br[6..][i];
    } else {
      assert bl[k] == bl[8..][i];
    }
  }

  /**
   * With the layout's arrow rect, the apex sits mid-arrow on the frame's edge for Down, Left
   * and Right; for Up it sits 1 pt below the top edge.
   */
  lemma LayoutApex(frame: Size, direction: ArrowDirection, offset: real)
    requires IsCardinal(direction)
    ensures var l := LayoutSubviews(frame, direction, offset);
      var apex := ArrowVertices(direction, l.arrowRect, l.bgRect)[1];
      && (direction == Up ==> apex == Point(frame.width / 2.0 + offset, 1.0))
      && (direction == Down ==> apex == Point(frame.width / 2.0 + offset, frame.height))
      && (direction == Left ==> apex == Point(0.0, frame.height / 2.0 + offset))
      && (direction == Right ==> apex == Point(frame.width, frame.height / 2.0 + offset))
  {
  }

  /**
   * With no corner rounded, each corner is a line to the body's corner point. The two bottom
   * corners are taken through `CGRectGetMaxX`/`CGRectGetMaxY`, so for a body with a negative
   * extent they fall back to its origin's coordinate, while the top-right corner does not.
   */
  lemma SharpCorners(a: Rect, bg: Rect)
    ensures var o := Outline(PopoverStyle(0.0, {}), AnyDirection, a, bg);
      && o[1] == LineTo(bg.origin)
      && o[3] == LineTo(Point(bg.MaxX(), bg.MinY()))
      && o[5] == LineTo(Point(bg.GetMaxX(), bg.GetMaxY()))
      && o[7] == LineTo(Point(bg.MinX(), bg.GetMaxY()))
  {
    var style := PopoverStyle(0.0, {});
    var o := Outline(style, AnyDirection, a, bg);
    var tl := TopLeftPart(style, AnyDirection, a, bg);
    var tr := TopRightPart(style, AnyDirection, a, bg);
    var br := BottomRightPart(style, AnyDirection, a, bg);
    var bl := BottomLeftPart(style, AnyDirection, a, bg);
    assert o[1] == bl[1] == br[1] == tr[1] == tl[1];
    assert o[3] == bl[3] == br[3] == tr[3];
    assert o[5] == bl[5] == br[5];
    assert o[7] == bl[7];
  }

  /** The body of a frame too narrow for a Left arrow: the bottom-right corner is drawn at its origin's x. */
  lemma NarrowLeftBodyCorner()
    ensures var l := LayoutSubviews(Size(20.0, 30.0), Left, 0.0);
      && l.bgRect == MakeRect(21.0, 1.0, -2.0, 28.0)
      && Outline(PopoverStyle(0.0, {}), Left, l.arrowRect, l.bgRect)[5] == LineTo(Point(21.0, 29.0))
  {
    var l := LayoutSubviews(Size(20.0, 30.0), Left, 0.0);
    var style := PopoverStyle(0.0, {});
    assert Outline(style, Left, l.arrowRect, l.bgRect)[5] == BottomRightPart(style, Left, l.arrowRect, l.bgRect)[5];
  }

  /** With all four corners rounded, each corner arc is a quarter circle centred a radius inside the body. */
  lemma RoundedCornerCentres(style: PopoverStyle, a: Rect, bg: Rect)
    requires style.roundedCorners == {TopLeft, TopRight, BottomRight, BottomLeft}
    ensures var o := Outline(style, AnyDirection, a, bg); var r := style.cornerRadius;
      && o[1] == Arc(Point(bg.MinX() + r, bg.MinY() + r), r, 2, 3)
      && o[3] == Arc(Point(bg.MaxX() - r, bg.MinY() + r), r, 3, 0)
      && o[5] == Arc(Point(bg.MaxX() - r, bg.MaxY() - r), r, 0, 1)
      && o[7] == Arc(Point(bg.MinX() + r, bg.MaxY() - r), r, 1, 2)
  {
    var o := Outline(style, AnyDirection, a, bg);
    var tl := TopLeftPart(style, AnyDirection, a, bg);
    var tr := TopRightPart(style, AnyDirection, a, bg);
    var br := BottomRightPart(style, AnyDirection, a, bg);
    var bl := BottomLeftPart(style, AnyDirection, a, bg);
    assert o[1] == bl[1] == br[1] == tr[1] == tl[1];
    assert o[3] == bl[3] == br[3] == tr[3];
    assert o[5] == bl[5] == br[5];
    assert o[7] == bl[7];
  }
}

=== FILE: registry.dfy ===
/** The process-wide list of drawable styles of DynUI.swift and its lookup by name. */
module Registry {
  import opened Wrappers

  /** A named drawable style; its attributes are opaque here. */
  datatype DrawableStyle<A> = DrawableStyle(name: string, attributes: seq<A>)

  /** Some entry of `styles` carries `name`. */
  predicate HasName<A>(styles: seq<DrawableStyle<A>>, name: string)
  {
    exists i :: 0 <= i < |styles| && styles[i].name == name
  }

  /** `i` is the first position whose entry carries `name`. */
  predicate FirstWithName<A>(styles: seq<DrawableStyle<A>>, name: string, i: int)
  {
    && 0 <= i < |styles|
    && styles[i].name == name
    && forall j :: 0 <= j < i ==> styles[j].name != name
  }

  /**
   * `drawableStyleForName`: the first entry, in registration order, whose name equals the
   * query, or nil when none does.
   */
  method DrawableStyleForName<A>(styles: seq<DrawableStyle<A>>, name: string) returns (r: Option<DrawableStyle<A>>)
    ensures r.None? <==> !HasName(styles, name)
    ensures r.Some? ==> r.value.name == name
    ensures r.Some? ==> exists i :: FirstWithName(styles, name, i) && styles[i] == r.value
  {
    var index := 0;
    while index < |styles|
      invariant 0 <= index <= |styles|
      invariant forall j :: 0 <= j < index ==> styles[j].name != name
    {
      if styles[index].name == name {
        assert FirstWithName(styles, name, index);
        return Some(styles[index]);
      }
      index := index + 1;
    }
    return None;
  }

  /** The first match is unique, so the lookup is determined by the list and the name. */
  lemma FirstWithNameUnique<A>(styles: seq<DrawableStyle<A>>, name: string, i: int, k: int)
    requires FirstWithName(styles, name, i) && FirstWithName(styles, name, k)
    ensures i == k
  {
  }

  /** An empty registry finds nothing. */
  lemma EmptyRegistryFindsNothing<A>(styles: seq<DrawableStyle<A>>, name: string)
    requires styles == []
    ensures !HasName(styles, name)
  {
  }

  /** A later registration with a name already present never shadows the earlier one. */
  lemma AppendKeepsFirstMatch<A>(styles: seq<DrawableStyle<A>>, name: string, i: int, extra: DrawableStyle<A>)
    requires FirstWithName(styles, name, i)
    ensures FirstWithName(styles + [extra], name, i)
  {
  }
}

=== FILE: render_cache.dfy ===
/**
 * The per-view render cache of View.swift: the recorded frame, the rasterisation counter,
 * the displayed contents, the dictionary of renderable styles attached to the view, and
 * whether the bounds observer and a button's highlight observer have been installed. Every
 * UIKit entry point becomes a pure
 * transition over `ViewState`; the current bounds are passed in by the host.
 *
 * `V` is the view-style type and `T` the text-style type; both are opaque here.
 */
module RenderCache {
  import opened Wrappers
  import opened Geometry

  /** Keys of the renderable-style dictionary used by `dyn_viewStyle` and `dyn_buttonStyle`. */
  const ViewStyleKey: string := "dyn_viewStyle"
  const ButtonStyleKey: string := "dyn_buttonStyle"

  datatype ButtonStyle<V, T> = ButtonStyle(
    viewStyle: Option<V>,
    highlightedViewStyle: Option<V>,
    textStyle: Option<T>)

  /** What the renderable-style dictionary holds: a view style or a button style. */
  datatype Renderable<V, T> = ViewRenderable(view: V) | ButtonRenderable(button: ButtonStyle<V, T>)

  /**
   * An opaque rasterised image: the bounds it was drawn for, the styles drawn into it,
   * and which rasterisation of the view produced it.
   */
  datatype Raster<V, T> = Raster(bounds: Rect, styles: map<string, Renderable<V, T>>, serial: nat)

  datatype ViewState<V, T> = ViewState(
    lastRecordedFrame: Option<Rect>,
    timesRendered: nat,
    contents: Option<Raster<V, T>>,
    styles: map<string, Renderable<V, T>>,
    observing: bool,
    textStyle: Option<T>,
    buttonObserving: bool)

  /** The counter counts the rasters: no contents before the first, and the latest carries its number. */
  predicate Consistent<V, T>(v: ViewState<V, T>)
  {
    && (v.contents.None? <==> v.timesRendered == 0)
    && (v.contents.Some? ==> v.contents.value.serial == v.timesRendered)
  }

  /** Whether `dyn_render` rasterises, given the recorded frame and the current bounds. */
  predicate Triggers(last: Option<Rect>, bounds: Rect)
  {
    match last
    case Some(frame) => !SameRect(frame, bounds)
    case None => Positive(bounds.size)
  }

  /** The nested `render()` of `dyn_render`: bump the counter and draw every attached style. */
  function Rasterize<V, T>(v: ViewState<V, T>, bounds: Rect): (r: ViewState<V, T>)
    ensures r.timesRendered == v.timesRendered + 1
    ensures r.contents == Some(Raster(bounds, v.styles, r.timesRendered))
    ensures r == v.(timesRendered := r.timesRendered, contents := r.contents)
    ensures Consistent(r)
  {
    var n := v.timesRendered + 1;
    v.(timesRendered := n, contents := Some(Raster(bounds, v.styles, n)))
  }

  /** `dyn_render`. */
  function Render<V, T>(v: ViewState<V, T>, bounds: Rect): (r: ViewState<V, T>)
    // afterwards the recorded frame is the bounds under CGRect `==`; it is overwritten by the
    // bounds' own fields unless it already was equal to them
    ensures r.lastRecordedFrame.Some? && SameRect(r.lastRecordedFrame.value, bounds)
    ensures Triggers(v.lastRecordedFrame, bounds) || v.lastRecordedFrame.None? ==> r.lastRecordedFrame == Some(bounds)
    ensures v.lastRecordedFrame.Some? && !Triggers(v.lastRecordedFrame, bounds) ==> r.lastRecordedFrame == v.lastRecordedFrame
    ensures r.styles == v.styles && r.observing == v.observing && r.textStyle == v.textStyle
    ensures r.buttonObserving == v.buttonObserving
    ensures Triggers(v.lastRecordedFrame, bounds) ==>
      r.timesRendered == v.timesRendered + 1 && r.contents == Some(Raster(bounds, v.styles, r.timesRendered))
    ensures !Triggers(v.lastRecordedFrame, bounds) ==>
      r.timesRendered == v.timesRendered && r.contents == v.contents
    ensures Consistent(v) ==> Consistent(r)
  {
    match v.lastRecordedFrame
    case Some(frame) =>
      if !SameRect(frame, bounds) then Rasterize(v, bounds).(lastRecordedFrame := Some(bounds)) else v
    case None =>
      var recorded := v.(lastRecordedFrame := Some(bounds));
      if bounds.size.width > 0.0 && bounds.size.height > 0.0 then Rasterize(recorded, bounds) else recorded
  }

  /** `dyn_forceRerender`: forget the recorded frame, then render. */
  function ForceRerender<V, T>(v: ViewState<V, T>, bounds: Rect): (r: ViewState<V, T>)
    ensures Positive(bounds.size) ==> r.timesRendered == v.timesRendered + 1
    ensures !Positive(bounds.size) ==> r.timesRendered == v.timesRendered && r.contents == v.contents
    ensures Positive(bounds.size) ==> r.contents == Some(Raster(bounds, v.styles, r.timesRendered))
    ensures r.lastRecordedFrame == Some(bounds)
    ensures r.styles == v.styles && r.observing == v.observing && r.textStyle == v.textStyle
    ensures r.buttonObserving == v.buttonObserving
    ensures Consistent(v) ==> Consistent(r)
  {
    Render(v.(lastRecordedFrame := None), bounds)
  }

  /** The bounds observer installed by `dyn_setup`: zero-size bounds are dropped. */
  function OnBoundsChanged<V, T>(v: ViewState<V, T>, bounds: Rect): (r: ViewState<V, T>)
    ensures !v.observing || !Positive(bounds.size) ==> r == v
    ensures v.observing && Positive(bounds.size) ==> r == Render(v, bounds)
    ensures r.timesRendered <= v.timesRendered + 1
    ensures r.timesRendered == v.timesRendered + 1 ==> Positive(bounds.size)
    ensures Consistent(v) ==> Consistent(r)
  {
    if !v.observing then v
    else if !(bounds.size.width > 0.0) then v
    else if !(bounds.size.height > 0.0) then v
    else Render(v, bounds)
  }

  /**
   * `dyn_setup`: once the observer exists, render straight away; the first time, install it.
   * Observation delivers the current bounds on subscription, so installing it reacts once.
   */
  function Setup<V, T>(v: ViewState<V, T>, bounds: Rect): (r: ViewState<V, T>)
    ensures r.observing
    ensures r.styles == v.styles && r.textStyle == v.textStyle && r.buttonObserving == v.buttonObserving
    ensures v.observing ==> r == Render(v, bounds)
    ensures !v.observing && !Positive(bounds.size) ==> r == v.(observing := true)
    ensures !v.observing && Positive(bounds.size) ==> r == Render(v.(observing := true), bounds)
    ensures r.timesRendered <= v.timesRendered + 1
    ensures Consistent(v) ==> Consistent(r)
  {
    if v.observing then Render(v, bounds)
    else OnBoundsChanged(v.(observing := true), bounds)
  }

  /** `dyn_getRenderableStyle` at the view-style type: the entry, when it is a view style. */
  function GetViewStyle<V, T>(v: ViewState<V, T>): (r: Option<V>)
    ensures r.Some? <==> ViewStyleKey in v.styles && v.styles[ViewStyleKey].ViewRenderable?
    ensures r.Some? ==> v.styles[ViewStyleKey] == ViewRenderable(r.value)
  {
    if ViewStyleKey in v.styles && v.styles[ViewStyleKey].ViewRenderable? then
      Some(v.styles[ViewStyleKey].view)
    else None
  }

  /** `dyn_getRenderableStyle` at the button-style type. */
  function GetButtonStyle<V, T>(v: ViewState<V, T>): (r: Option<ButtonStyle<V, T>>)
    ensures r.Some? <==> ButtonStyleKey in v.styles && v.styles[ButtonStyleKey].ButtonRenderable?
    ensures r.Some? ==> v.styles[ButtonStyleKey] == ButtonRenderable(r.value)
  {
    if ButtonStyleKey in v.styles && v.styles[ButtonStyleKey].ButtonRenderable? then
      Some(v.styles[ButtonStyleKey].button)
    else None
  }

  /**
   * `dyn_setRenderableStyle`: store (or, for nil, remove) one entry, then run `dyn_setup`
   * through the dictionary's setter.
   */
  function SetRenderableStyle<V, T>(v: ViewState<V, T>, key: string, style: Option<Renderable<V, T>>, bounds: Rect)
    : (r: ViewState<V, T>)
    ensures style.Some? ==> key in r.styles && r.styles[key] == style.value
    ensures style.None? ==> key !in r.styles
    ensures forall k :: k != key ==> (k in r.styles <==> k in v.styles)
    ensures forall k :: k != key && k in v.styles ==> r.styles[k] == v.styles[k]
    ensures r.observing && r.textStyle == v.textStyle && r.buttonObserving == v.buttonObserving
    ensures r.timesRendered <= v.timesRendered + 1
    // `dyn_setup` renders, unless it installs the observer for bounds it then drops
    ensures v.observing || Positive(bounds.size) ==>
      && r.lastRecordedFrame.Some? && SameRect(r.lastRecordedFrame.value, bounds)
      && (Triggers(v.lastRecordedFrame, bounds) || v.lastRecordedFrame.None? ==> r.lastRecordedFrame == Some(bounds))
      && (Triggers(v.lastRecordedFrame, bounds) ==> r.timesRendered == v.timesRendered + 1)
      && (!Triggers(v.lastRecordedFrame, bounds) ==> r.timesRendered == v.timesRendered)
    ensures !v.observing && !Positive(bounds.size) ==>
      r.lastRecordedFrame == v.lastRecordedFrame && r.timesRendered == v.timesRendered
    ensures Consistent(v) ==> Consistent(r)
  {
    var styles := match style
      case Some(s) => v.styles[key := s]
      case None => v.styles - {key};
    Setup(v.(styles := styles), bounds)
  }

  /** The `dyn_viewStyle` setter. */
  function SetViewStyle<V, T>(v: ViewState<V, T>, style: Option<V>, bounds: Rect): (r: ViewState<V, T>)
    ensures GetViewStyle(r) == style
    ensures GetButtonStyle(r) == GetButtonStyle(v)
    ensures r.textStyle == v.textStyle && r.observing && r.buttonObserving == v.buttonObserving
    ensures Consistent(v) ==> Consistent(r)
  {
    var entry := match style
      case Some(s) => Some(ViewRenderable(s))
      case None => None;
    SetRenderableStyle(v, ViewStyleKey, entry, bounds)
  }

  /**
   * `dyn_applyStyleForState` of UIButton: with a button style attached, forget the recorded
   * frame, take its text style, then attach the view style for the current highlight state.
   * A highlighted button whose style has no highlighted view style keeps its view style.
   */
  function ApplyStyleForState<V, T>(v: ViewState<V, T>, highlighted: bool, bounds: Rect): (r: ViewState<V, T>)
    ensures GetButtonStyle(v).None? ==> r == v
    ensures GetButtonStyle(v).Some? ==> r.textStyle == GetButtonStyle(v).value.textStyle
    ensures GetButtonStyle(r) == GetButtonStyle(v)
    ensures v.observing ==> r.observing
    ensures r.buttonObserving == v.buttonObserving
    ensures Consistent(v) ==> Consistent(r)
  {
    match GetButtonStyle(v)
    case None => v
    case Some(style) =>
      var reset := v.(lastRecordedFrame := None, textStyle := style.textStyle);
      if highlighted then
        match style.highlightedViewStyle
        case Some(h) => SetViewStyle(reset, Some(h), bounds)
        case None => reset
      else SetViewStyle(reset, style.viewStyle, bounds)
  }

  /**
   * The highlight observer of `dyn_setupButtonStyle`, at the moment it applies the style: a
   * highlighted state is applied as it is delivered; an unhighlighted one 0.2 s later, on the
   * main queue, which is when the host calls this.
   */
  function OnHighlightChanged<V, T>(v: ViewState<V, T>, highlighted: bool, bounds: Rect): (r: ViewState<V, T>)
    ensures !v.buttonObserving ==> r == v
    ensures v.buttonObserving ==> r == ApplyStyleForState(v, highlighted, bounds)
  {
    if v.buttonObserving then ApplyStyleForState(v, highlighted, bounds) else v
  }

  /**
   * `dyn_setupButtonStyle`: the first time, install the highlight observer. Observation
   * delivers the current state on subscription, so a highlighted button has its style applied
   * straight away; for an unhighlighted one that delivery is deferred and happens later as an
   * `OnHighlightChanged` of its own.
   */
  function SetupButtonStyle<V, T>(v: ViewState<V, T>, highlighted: bool, bounds: Rect): (r: ViewState<V, T>)
    ensures r.buttonObserving
    ensures v.buttonObserving || !highlighted ==> r == v.(buttonObserving := true)
    ensures !v.buttonObserving && highlighted ==> r == ApplyStyleForState(v.(buttonObserving := true), true, bounds)
  {
    if v.buttonObserving then v
    else
      var installed := v.(buttonObserving := true);
      if highlighted then OnHighlightChanged(installed, true, bounds) else installed
  }

  /**
   * The `dyn_buttonStyle` setter: store the entry (which runs `dyn_setup`); for a non-nil
   * style, set up the highlight observer and apply the style for the current highlight
   * state; for nil, drop the highlight observer.
   */
  function SetButtonStyle<V, T>(v: ViewState<V, T>, style: Option<ButtonStyle<V, T>>, highlighted: bool, bounds: Rect)
    : (r: ViewState<V, T>)
    ensures GetButtonStyle(r) == style
    ensures style.Some? ==> r.textStyle == style.value.textStyle
    ensures style.None? ==> r.textStyle == v.textStyle
    ensures r.buttonObserving <==> style.Some?
    ensures r.observing
    // the view style for the current highlight state is attached
    ensures style.Some? && !highlighted ==> GetViewStyle(r) == style.value.viewStyle
    ensures style.Some? && highlighted && style.value.highlightedViewStyle.Some? ==>
      GetViewStyle(r) == style.value.highlightedViewStyle
    ensures style.Some? && highlighted && style.value.highlightedViewStyle.None? ==> GetViewStyle(r) == GetViewStyle(v)
    ensures Consistent(v) ==> Consistent(r)
  {
    var entry := match style
      case Some(s) => Some(ButtonRenderable(s))
      case None => None;
    var stored := SetRenderableStyle(v, ButtonStyleKey, entry, bounds);
    if style.Some? then ApplyStyleForState(SetupButtonStyle(stored, highlighted, bounds), highlighted, bounds)
    else stored.(buttonObserving := false)
  }

  /** Deliver a sequence of bounds notifications to the observer. */
  function Observe<V, T>(v: ViewState<V, T>, trace: seq<Rect>): ViewState<V, T>
    decreases |trace|
  {
    if trace == [] then v else Observe(OnBoundsChanged(v, trace[0]), trace[1..])
  }

  /** Every displayed raster was drawn for positive bounds. */
  predicate PositiveContents<V, T>(v: ViewState<V, T>)
  {
    v.contents.Some? ==> Positive(v.contents.value.bounds.size)
  }

  // ----- dyn_render -----

  /**
   * A recorded frame equal to the bounds under CGRect `==`: nothing at all changes, not even
   * the recorded frame, which keeps its own (possibly unstandardised) fields.
   */
  lemma RenderUnchangedBoundsIsNoop<V, T>(v: ViewState<V, T>, bounds: Rect)
    requires v.lastRecordedFrame.Some? && SameRect(v.lastRecordedFrame.value, bounds)
    ensures Render(v, bounds) == v
  {
  }

  /** Bounds that describe the recorded frame from its far corner do not rasterise. */
  lemma RenderFlippedBoundsIsNoop<V, T>(v: ViewState<V, T>)
    requires v.lastRecordedFrame == Some(MakeRect(0.0, 0.0, 10.0, 10.0))
    ensures Render(v, MakeRect(10.0, 10.0, -10.0, -10.0)) == v
  {
    SameRectFlipped();
  }

  /** A recorded frame different from the bounds: exactly one rasterisation, and the bounds are recorded. */
  lemma RenderChangedBoundsRendersOnce<V, T>(v: ViewState<V, T>, bounds: Rect)
    requires v.lastRecordedFrame.Some? && !SameRect(v.lastRecordedFrame.value, bounds)
    ensures Render(v, bounds) == v.(lastRecordedFrame := Some(bounds), timesRendered := v.timesRendered + 1,
                                    contents := Some(Raster(bounds, v.styles, v.timesRendered + 1)))
  {
  }

  /** No recorded frame: the bounds are recorded, and a raster is made exactly when both extents are positive. */
  lemma RenderFirstSight<V, T>(v: ViewState<V, T>, bounds: Rect)
    requires v.lastRecordedFrame.None?
    ensures Render(v, bounds).lastRecordedFrame == Some(bounds)
    ensures Render(v, bounds).timesRendered == v.timesRendered + (if Positive(bounds.size) then 1 else 0)
    ensures !Positive(bounds.size) ==> Render(v, bounds) == v.(lastRecordedFrame := Some(bounds))
  {
  }

  /** Rendering twice for the same bounds is rendering once. */
  lemma RenderIdempotent<V, T>(v: ViewState<V, T>, bounds: Rect)
    ensures Render(Render(v, bounds), bounds) == Render(v, bounds)
    ensures Render(Render(v, bounds), bounds).timesRendered <= v.timesRendered + 1
  {
  }

  /**
   * Unlike the observer, `dyn_render` itself does not filter zero sizes: with a recorded
   * frame, a change to zero-size bounds reaches `render()`, which counts it and asks for a
   * drawing of the zero bounds. Whether UIKit can produce that image is outside the model.
   */
  lemma RenderDoesNotFilterZeroSize<V, T>(v: ViewState<V, T>, frame: Rect, bounds: Rect)
    requires v.lastRecordedFrame == Some(frame) && !SameRect(frame, bounds)
    requires !Positive(bounds.size)
    ensures Render(v, bounds).timesRendered == v.timesRendered + 1
    ensures Render(v, bounds).contents == Some(Raster(bounds, v.styles, v.timesRendered + 1))
  {
  }

  /** After `dyn_forceRerender` the render goes ahead whenever both extents of the bounds are positive. */
  lemma ForceRerenderRendersPositive<V, T>(v: ViewState<V, T>, bounds: Rect)
    requires Positive(bounds.size)
    ensures ForceRerender(v, bounds).contents == Some(Raster(bounds, v.styles, v.timesRendered + 1))
  {
  }

  // ----- the bounds observer -----

  /** Once a notification has been delivered, repeating it is a no-op. */
  lemma ObserverFixpoint<V, T>(v: ViewState<V, T>, bounds: Rect)
    ensures OnBoundsChanged(OnBoundsChanged(v, bounds), bounds) == OnBoundsChanged(v, bounds)
  {
  }

  /** A state that a notification leaves alone stays put under any run of the same notification. */
  lemma {:induction false} ObserveRepeatedFixpoint<V, T>(v: ViewState<V, T>, bounds: Rect, trace: seq<Rect>)
    requires OnBoundsChanged(v, bounds) == v
    requires forall i :: 0 <= i < |trace| ==> trace[i] == bounds
    ensures Observe(v, trace) == v
    decreases |trace|
  {
    if trace != [] {
      ObserveRepeatedFixpoint(v, bounds, trace[1..]);
    }
  }

  /** Any run of identical notifications rasterises at most once. */
  lemma {:induction false} ObserveRepeatedRendersAtMostOnce<V, T>(v: ViewState<V, T>, bounds: Rect, trace: seq<Rect>)
    requires forall i :: 0 <= i < |trace| ==> trace[i] == bounds
    ensures Observe(v, trace).timesRendered <= v.timesRendered + 1
  {
    if trace != [] {
      var first := OnBoundsChanged(v, bounds);
      ObserverFixpoint(v, bounds);
      ObserveRepeatedFixpoint(first, bounds, trace[1..]);
    }
  }

  /** The observer never rasterises for bounds with a zero (or negative) extent. */
  lemma {:induction false} ObserveZeroSizeIsNoop<V, T>(v: ViewState<V, T>, trace: seq<Rect>)
    requires forall i :: 0 <= i < |trace| ==> !Positive(trace[i].size)
    ensures Observe(v, trace) == v
    decreases |trace|
  {
    if trace != [] {
      ObserveZeroSizeIsNoop(v, trace[1..]);
    }
  }

  /** Driven only by the observer, a view only ever displays rasters of positive bounds. */
  lemma {:induction false} ObserveKeepsPositiveContents<V, T>(v: ViewState<V, T>, trace: seq<Rect>)
    requires PositiveContents(v)
    ensures PositiveContents(Observe(v, trace))
    decreases |trace|
  {
    if trace != [] {
      ObserveKeepsPositiveContents(OnBoundsChanged(v, trace[0]), trace[1..]);
    }
  }

  /** Each delivered notification rasterises at most once, and the counter agrees with the contents. */
  lemma {:induction false} ObserveBoundsRenderCount<V, T>(v: ViewState<V, T>, trace: seq<Rect>)
    requires Consistent(v)
    ensures v.timesRendered <= Observe(v, trace).timesRendered <= v.timesRendered + |trace|
    ensures Consistent(Observe(v, trace))
    decreases |trace|
  {
    if trace != [] {
      var next := OnBoundsChanged(v, trace[0]);
      ObserveBoundsRenderCount(next, trace[1..]);
    }
  }

  /**
   * Two notifications with the same bounds rasterise once; a third with different bounds
   * rasterises again.
   */
  lemma ObserveSameThenDifferent<V, T>(v: ViewState<V, T>, b1: Rect, b2: Rect)
    requires v.observing && v.lastRecordedFrame.None?
    requires Positive(b1.size) && Positive(b2.size) && b1 != b2
    ensures Observe(v, [b1, b1]).timesRendered == v.timesRendered + 1
    ensures Observe(v, [b1, b1, b2]).timesRendered == v.timesRendered + 2
  {
    var s1 := OnBoundsChanged(v, b1);
    var s2 := OnBoundsChanged(s1, b1);
    assert Observe(s2, []) == s2;
    assert Observe(v, [b1, b1]) == Observe(s1, [b1]) == Observe(s2, []);
    var s3 := OnBoundsChanged(s2, b2);
    assert Observe(s3, []) == s3;
    assert Observe(v, [b1, b1, b2]) == Observe(s1, [b1, b2]) == Observe(s2, [b2]) == Observe(s3, []);
  }

  // ----- button state -----

  /** Highlighted, with a highlighted view style: that style is attached and the text style taken. */
  lemma ApplyHighlightedWithStyle<V, T>(v: ViewState<V, T>, bounds: Rect)
    requires GetButtonStyle(v).Some? && GetButtonStyle(v).value.highlightedViewStyle.Some?
    ensures GetViewStyle(ApplyStyleForState(v, true, bounds)) == GetButtonStyle(v).value.highlightedViewStyle
    ensures ApplyStyleForState(v, true, bounds).textStyle == GetButtonStyle(v).value.textStyle
  {
  }

  /** Not highlighted: the plain view style is attached (or removed when the button style has none). */
  lemma ApplyNotHighlighted<V, T>(v: ViewState<V, T>, bounds: Rect)
    requires GetButtonStyle(v).Some?
    ensures GetViewStyle(ApplyStyleForState(v, false, bounds)) == GetButtonStyle(v).value.viewStyle
    ensures ApplyStyleForState(v, false, bounds).textStyle == GetButtonStyle(v).value.textStyle
  {
  }

  /**
   * Highlighted without a highlighted view style: the view style and the styles dictionary
   * are untouched, but the recorded frame is forgotten and the text style taken.
   */
  lemma ApplyHighlightedWithoutStyle<V, T>(v: ViewState<V, T>, bounds: Rect)
    requires GetButtonStyle(v).Some? && GetButtonStyle(v).value.highlightedViewStyle.None?
    ensures ApplyStyleForState(v, true, bounds)
         == v.(lastRecordedFrame := None, textStyle := GetButtonStyle(v).value.textStyle)
    ensures GetViewStyle(ApplyStyleForState(v, true, bounds)) == GetViewStyle(v)
  {
  }

  /**
   * Because the recorded frame is forgotten first, attaching the state's view style to an
   * observed view with positive bounds always rasterises, with the new style in the raster.
   */
  lemma ApplyStyleForStateRerenders<V, T>(v: ViewState<V, T>, highlighted: bool, bounds: Rect)
    requires v.observing && Positive(bounds.size)
    requires GetButtonStyle(v).Some?
    requires !highlighted || GetButtonStyle(v).value.highlightedViewStyle.Some?
    ensures var r := ApplyStyleForState(v, highlighted, bounds);
      && r.timesRendered == v.timesRendered + 1
      && r.lastRecordedFrame == Some(bounds)
      && r.contents == Some(Raster(bounds, r.styles, r.timesRendered))
  {
  }

  /**
   * Setting a button style on an observed view with positive bounds rasterises once for the
   * direct application and, when the highlight observer is installed now on a highlighted
   * button, once more for the observer's initial delivery.
   */
  lemma SetButtonStyleRenderCount<V, T>(v: ViewState<V, T>, style: ButtonStyle<V, T>, highlighted: bool, bounds: Rect)
    requires v.observing && Positive(bounds.size)
    requires !highlighted || style.highlightedViewStyle.Some?
    ensures var stored := SetRenderableStyle(v, ButtonStyleKey, Some(ButtonRenderable(style)), bounds);
      SetButtonStyle(v, Some(style), highlighted, bounds).timesRendered
        == stored.timesRendered + (if highlighted && !v.buttonObserving then 2 else 1)
  {
    var stored := SetRenderableStyle(v, ButtonStyleKey, Some(ButtonRenderable(style)), bounds);
    assert GetButtonStyle(stored) == Some(style);
    var installed := SetupButtonStyle(stored, highlighted, bounds);
    if highlighted && !v.buttonObserving {
      ApplyStyleForStateRerenders(stored.(buttonObserving := true), true, bounds);
      assert installed.timesRendered == stored.timesRendered + 1;
    }
    ApplyStyleForStateRerenders(installed, highlighted, bounds);
  }

  /** Clearing the button style removes it and drops the highlight observer, so later highlight changes do nothing. */
  lemma ClearButtonStyleStopsHighlighting<V, T>(v: ViewState<V, T>, highlighted: bool, later: bool, bounds: Rect)
    ensures var r := SetButtonStyle(v, None, highlighted, bounds);
      && GetButtonStyle(r).None?
      && OnHighlightChanged(r, later, bounds) == r
  {
  }

  /**
   * A highlighted button whose style has no highlighted view style attaches nothing, so
   * neither application rasterises; each only forgets the recorded frame.
   */
  lemma SetButtonStyleHighlightedWithoutStyle<V, T>(v: ViewState<V, T>, style: ButtonStyle<V, T>, bounds: Rect)
    requires style.highlightedViewStyle.None?
    ensures var stored := SetRenderableStyle(v, ButtonStyleKey, Some(ButtonRenderable(style)), bounds);
      var r := SetButtonStyle(v, Some(style), true, bounds);
      && r.timesRendered == stored.timesRendered
      && r.contents == stored.contents
      && r.lastRecordedFrame.None?
  {
    var stored := SetRenderableStyle(v, ButtonStyleKey, Some(ButtonRenderable(style)), bounds);
    assert GetButtonStyle(stored) == Some(style);
  }
}

=== FILE: serialization.dfy ===
/**
 * The tagged tree the style attributes serialise into, the abstract codecs of the value
 * types whose own serialisation lies outside this model (UIColor, CGPoint, String), and
 * the element-wise codec of arrays.
 */
module Serialization {
  import opened Wrappers

  datatype Serialized =
    | Dict(entries: map<string, Serialized>)
    | Str(text: string)
    | Array(items: seq<Serialized>)

  /**
   * The outcome of a `fromSerialized` call: a value, Swift's nil, or a runtime trap
   * (a force-unwrap of nil).
   */
  datatype Decoding<+T> = Decoded(value: T) | Nil | Trapped

  /** A value type's `serialize` and `fromSerialized`, supplied from outside. */
  datatype Codec<!T> = Codec(encode: T -> Serialized, decode: Serialized -> Option<T>)

  /** Decoding what was encoded gives the value back. */
  ghost predicate Lossless<T(!new)>(c: Codec<T>)
  {
    forall x :: c.decode(c.encode(x)) == Some(x)
  }

  /** A plain `Str` node decodes to its own text. */
  ghost predicate ReadsStr(text: Codec<string>)
  {
    forall s :: text.decode(Str(s)) == Some(s)
  }

  /** An optional-returning decoder seen as one that never traps. */
  function Lift<T>(decode: Serialized -> Option<T>, s: Serialized): (r: Decoding<T>)
    ensures r.Decoded? <==> decode(s).Some?
    ensures r.Decoded? ==> r.value == decode(s).value
    ensures !r.Trapped?
  {
    match decode(s)
    case Some(v) => Decoded(v)
    case None => Nil
  }

  /** `[T].serialize()`: an `Array` of the elements' encodings, in order. */
  function EncodeList<T>(xs: seq<T>, encode: T -> Serialized): (s: Serialized)
    ensures s.Array? && |s.items| == |xs|
    ensures forall i :: 0 <= i < |xs| ==> s.items[i] == encode(xs[i])
  {
    Array(seq(|xs|, i requires 0 <= i < |xs| => encode(xs[i])))
  }

  /**
   * Decode every item: a trap in any item traps, otherwise a nil in any item is nil,
   * otherwise the decoded values in order.
   */
  function DecodeItems<T>(items: seq<Serialized>, decode: Serialized -> Decoding<T>): (r: Decoding<seq<T>>)
    ensures r.Trapped? <==> exists i :: 0 <= i < |items| && decode(items[i]).Trapped?
    ensures r.Nil? <==>
      (forall i :: 0 <= i < |items| ==> !decode(items[i]).Trapped?) &&
      (exists i :: 0 <= i < |items| && decode(items[i]).Nil?)
    ensures r.Decoded? ==> |r.value| == |items|
    ensures r.Decoded? ==> forall i :: 0 <= i < |items| ==> decode(items[i]) == Decoded(r.value[i])
    decreases |items|
  {
    if items == [] then Decoded([])
    else
      var head := decode(items[0]);
      var tail := DecodeItems(items[1..], decode);
      assert forall i :: 1 <= i < |items| ==> items[i] == items[1..][i - 1];
      if head.Trapped? || tail.Trapped? then Trapped
      else if head.Nil? || tail.Nil? then Nil
      else Decoded([head.value] + tail.value)
  }

  /** `[T].fromSerialized`: an `Array` decoded item by item; anything else is nil. */
  function DecodeList<T>(s: Serialized, decode: Serialized -> Decoding<T>): (r: Decoding<seq<T>>)
    ensures !s.Array? ==> r == Nil
  {
    match s
    case Array(items) => DecodeItems(items, decode)
    case _ => Nil
  }

  /** Decoding the encoding of a list whose elements each round-trip gives the list back. */
  lemma {:induction false} ListRoundTrip<T>(xs: seq<T>, encode: T -> Serialized, decode: Serialized -> Decoding<T>)
    requires forall i :: 0 <= i < |xs| ==> decode(encode(xs[i])) == Decoded(xs[i])
    ensures DecodeList(EncodeList(xs, encode), decode) == Decoded(xs)
  {
    ItemsRoundTrip(xs, encode, decode);
  }

  lemma {:induction false} ItemsRoundTrip<T>(xs: seq<T>, encode: T -> Serialized, decode: Serialized -> Decoding<T>)
    requires forall i :: 0 <= i < |xs| ==> decode(encode(xs[i])) == Decoded(xs[i])
    ensures DecodeItems(EncodeList(xs, encode).items, decode) == Decoded(xs)
    decreases |xs|
  {
    var items := EncodeList(xs, encode).items;
    if xs != [] {
      ItemsRoundTrip(xs[1..], encode, decode);
      assert items[1..] == EncodeList(xs[1..], encode).items;
      assert xs == [xs[0]] + xs[1..];
    }
  }
}

=== FILE: style_attributes.dfy ===
/**
 * The serialisable drawing attributes of Style.swift: a colour attribute (optional name and a
 * colour) and a gradient attribute (optional name, colour stops and locations), with their
 * `serialize` and `fromSerialized`. `C` is the colour type and `P` the point type; their own
 * codecs are parameters.
 */
module StyleAttributes {
  import opened Wrappers
  import opened Serialization

  const NameKey: string := "name"
  const ColorKey: string := "color"
  const ColorsKey: string := "colors"
  const LocationsKey: string := "locations"

  datatype ColorAttribute<C> = ColorAttribute(name: Option<string>, color: C)

  datatype GradientAttribute<C, P> = GradientAttribute(
    name: Option<string>,
    colors: seq<ColorAttribute<C>>,
    locations: seq<P>)

  /** The dictionary's key set for an attribute with this name and these always-present keys. */
  function KeysFor(name: Option<string>, always: set<string>): set<string>
  {
    if name.Some? then always + {NameKey} else always
  }

  // ----- ColorStyleAttribute -----

  /** `ColorStyleAttribute.serialize`: the name as a plain `Str`, when there is one, and the colour. */
  function EncodeColor<C>(color: Codec<C>, attr: ColorAttribute<C>): (s: Serialized)
    ensures s.Dict?
    ensures s.entries.Keys == KeysFor(attr.name, {ColorKey})
    ensures s.entries[ColorKey] == color.encode(attr.color)
    ensures attr.name.Some? ==> s.entries[NameKey] == Str(attr.name.value)
  {
    var named := match attr.name
      case Some(n) => map[NameKey := Str(n)]
      case None => map[];
    Dict(named[ColorKey := color.encode(attr.color)])
  }

  /**
   * `ColorStyleAttribute.fromSerialized`: nil for anything but a `Dict`; a trap when the colour
   * is missing or does not decode; a name that does not decode is dropped.
   */
  function DecodeColor<C>(text: Codec<string>, color: Codec<C>, s: Serialized): (r: Decoding<ColorAttribute<C>>)
    ensures !s.Dict? ==> r == Nil
    ensures s.Dict? && ColorKey !in s.entries ==> r == Trapped
    ensures r.Nil? ==> !s.Dict?
    ensures r.Decoded? <==> s.Dict? && ColorKey in s.entries && color.decode(s.entries[ColorKey]).Some?
    ensures r.Decoded? ==> r.value.color == color.decode(s.entries[ColorKey]).value
    ensures r.Decoded? ==> (NameKey !in s.entries ==> r.value.name == None)
    ensures r.Decoded? ==> (NameKey in s.entries ==> r.value.name == text.decode(s.entries[NameKey]))
  {
    match s
    case Dict(d) =>
      var name := if NameKey in d then text.decode(d[NameKey]) else None;
      var c := if ColorKey in d then color.decode(d[ColorKey]) else None;
      if c.Some? then Decoded(ColorAttribute(name, c.value)) else Trapped
    case _ => Nil
  }

  /** A serialised colour attribute decodes to itself, given colour and string codecs that round-trip. */
  lemma ColorRoundTrip<C(!new)>(text: Codec<string>, color: Codec<C>, attr: ColorAttribute<C>)
    requires ReadsStr(text) && Lossless(color)
    ensures DecodeColor(text, color, EncodeColor(color, attr)) == Decoded(attr)
  {
  }

  // ----- GradientStyleAttribute -----

  /** Each colour stop's own encoding, as the colours array uses it. */
  function ColorEncoder<C>(color: Codec<C>): ColorAttribute<C> -> Serialized
  {
    attr => EncodeColor(color, attr)
  }

  function ColorDecoder<C>(text: Codec<string>, color: Codec<C>): Serialized -> Decoding<ColorAttribute<C>>
  {
    s => DecodeColor(text, color, s)
  }

  function PointDecoder<P>(point: Codec<P>): Serialized -> Decoding<P>
  {
    s => Lift(point.decode, s)
  }

  /** `GradientStyleAttribute.serialize`: name when present, then the colours and the locations as arrays. */
  function EncodeGradient<C, P>(text: Codec<string>, color: Codec<C>, point: Codec<P>, g: GradientAttribute<C, P>)
    : (s: Serialized)
    ensures s.Dict?
    ensures s.entries.Keys == KeysFor(g.name, {ColorsKey, LocationsKey})
    ensures g.name.Some? ==> s.entries[NameKey] == text.encode(g.name.value)
    ensures s.entries[ColorsKey] == EncodeList(g.colors, ColorEncoder(color))
    ensures s.entries[LocationsKey].Array? && |s.entries[LocationsKey].items| == |g.locations|
    ensures forall i :: 0 <= i < |g.locations| ==> s.entries[LocationsKey].items[i] == point.encode(g.locations[i])
  {
    var named := match g.name
      case Some(n) => map[NameKey := text.encode(n)]
      case None => map[];
    Dict(named[ColorsKey := EncodeList(g.colors, ColorEncoder(color))]
              [LocationsKey := EncodeList(g.locations, point.encode)])
  }

  /**
   * A present key whose value does not decode traps (the force-unwrap); an absent key
   * leaves the default.
   */
  function Required<T>(d: map<string, Serialized>, key: string, decoded: Decoding<T>, default: T): (r: Decoding<T>)
    ensures key !in d ==> r == Decoded(default)
    ensures key in d ==> (r.Decoded? <==> decoded.Decoded?) && !r.Nil?
    ensures key in d && decoded.Decoded? ==> r == decoded
  {
    if key !in d then Decoded(default)
    else if decoded.Decoded? then decoded
    else Trapped
  }

  /**
   * `GradientStyleAttribute.fromSerialized`: nil for anything but a `Dict`; a missing name is nil
   * and missing colours or locations are empty; a present array that does not decode traps.
   */
  function DecodeGradient<C, P>(text: Codec<string>, color: Codec<C>, point: Codec<P>, s: Serialized)
    : (r: Decoding<GradientAttribute<C, P>>)
    ensures !s.Dict? ==> r == Nil
    ensures r.Nil? ==> !s.Dict?
    ensures s.Dict? && ColorsKey !in s.entries && LocationsKey !in s.entries ==>
      r.Decoded? && r.value.colors == [] && r.value.locations == []
    ensures r.Trapped? <==> (
      && s.Dict?
      && ((ColorsKey in s.entries && !DecodeList(s.entries[ColorsKey], ColorDecoder(text, color)).Decoded?) ||
          (LocationsKey in s.entries && !DecodeList(s.entries[LocationsKey], PointDecoder(point)).Decoded?)))
    ensures r.Decoded? ==> r.value.name == (if NameKey in s.entries then text.decode(s.entries[NameKey]) else None)
    ensures r.Decoded? ==> (
      r.value.colors ==
        if ColorsKey in s.entries then DecodeList(s.entries[ColorsKey], ColorDecoder(text, color)).value else [])
    ensures r.Decoded? ==> (
      r.value.locations ==
        if LocationsKey in s.entries then DecodeList(s.entries[LocationsKey], PointDecoder(point)).value else [])
  {
    match s
    case Dict(d) =>
      var name := if NameKey in d then text.decode(d[NameKey]) else None;
      var colors := Required(d, ColorsKey,
        if ColorsKey in d then DecodeList(d[ColorsKey], ColorDecoder(text, color)) else Nil, []);
      var locations := Required(d, LocationsKey,
        if LocationsKey in d then DecodeList(d[LocationsKey], PointDecoder(point)) else Nil, []);
      if colors.Decoded? && locations.Decoded? then
        Decoded(GradientAttribute(name, colors.value, locations.value))
      else Trapped
    case _ => Nil
  }

  /** The gradient's colour stops and locations round-trip in order, and so does its name. */
  lemma GradientRoundTrip<C(!new), P(!new)>(text: Codec<string>, color: Codec<C>, point: Codec<P>, g: GradientAttribute<C, P>)
    requires Lossless(text) && ReadsStr(text) && Lossless(color) && Lossless(point)
    ensures DecodeGradient(text, color, point, EncodeGradient(text, color, point, g)) == Decoded(g)
  {
    var d := EncodeGradient(text, color, point, g).entries;
    forall i | 0 <= i < |g.colors|
      ensures ColorDecoder(text, color)(ColorEncoder(color)(g.colors[i])) == Decoded(g.colors[i])
    {
      ColorRoundTrip(text, color, g.colors[i]);
    }
    ListRoundTrip(g.colors, ColorEncoder(color), ColorDecoder(text, color));
    forall i | 0 <= i < |g.locations|
      ensures PointDecoder(point)(point.encode(g.locations[i])) == Decoded(g.locations[i])
    {
      assert point.decode(point.encode(g.locations[i])) == Some(g.locations[i]);
    }
    ListRoundTrip(g.locations, point.encode, PointDecoder(point));
    assert d[LocationsKey] == EncodeList(g.locations, point.encode);
    if g.name.Some? {
      assert text.decode(d[NameKey]) == Some(g.name.value);
    }
  }

  /** A gradient `Dict` whose colours entry is not an array traps. */
  lemma GradientColorsNotArrayTraps<C, P>(text: Codec<string>, color: Codec<C>, point: Codec<P>, d: map<string, Serialized>)
    requires ColorsKey in d && !d[ColorsKey].Array?
    ensures DecodeGradient(text, color, point, Dict(d)) == Trapped
  {
  }
}

=== FILE: wrappers.dfy ===
/** Optional values, standing in for Swift's `T?`. */
module Wrappers {

  datatype Option<+T> = None | Some(value: T) {

    /** Returns the value in Some, or `default` when None (Swift's `??`). */
    function GetOr(default: T): (r: T)
      ensures Some? ==> r == value
      ensures None? ==> r == default
    {
      match this
      case Some(v) => v
      case None => default
    }
  }
}
